=== FILE: README.md ===
# Finance tracker: dashboards, payment checks and data routes

A model of the core of a small personal finance tracker. It has three parts:

- the desktop web client (`public/script.js`);
- the mobile client (`mobile_app/script.js`);
- the Express/SQLite server (`server.js`).

What the model covers:

- **Desktop `renderDashboard`.** The desktop has four period views:
  - Daily: the transactions whose date text equals the selected date.
  - Weekly: seven rows, one for the selected date and one for each of the six days before it; for a selected year from 0000 to 0099 the `Date` constructor reads the year as 1900–1999, so the rows are dates of that later year.
  - Monthly: four week buckets of the selected `YYYY-MM`.
  - Yearly: twelve month rows of the selected year.

  The model follows the code's string handling exactly:
  - `split('-').map(Number)`;
  - `new Date(y, m-1, d)`, which maps the years 0–99 to 1900–1999;
  - `toISOString`;
  - `String(selY)`, which drops leading zeros;
  - `padStart`, `startsWith`;
  - `parseInt` with white space, sign, `0x` prefix and junk;
  - `Math.ceil(day/7)` capped at 4.

  The dashboard is a value `View(txs, period, anchor)`. `RenderDashboard` is the imperative loop structure proved equal to it. The main theorem says that the displayed income and expense are the sums over the counted transactions, each counted once.
- **Mobile `renderDashboard`.** It shows the daily list on the daily filter and the sum of everything loaded on every other filter. Its relation to the desktop is in module `Agreement`.
- **Payment checks.**
  - The desktop refuses blank text, and text whose `Number` value is zero or less.
  - The mobile client refuses blank text only.
- **Server routes.** `isAuth`, `POST /debt-update`, `POST /delete-data`, `POST /delete-account` and `GET /transactions` are modelled in two forms:
  - pure reply functions over the three tables;
  - a `Database` class whose methods update the tables in place and are proved equal to those functions.

Modules:

| Module | What it holds |
|---|---|
| `Wrappers` | `Option` |
| `Seqs` | small sequence facts |
| `JsText` | the JavaScript string and number built-ins the clients use |
| `Calendar` | Gregorian dates, day numbers, `Format`/`Fields` |
| `Records` | rows and dashboards |
| `Aggregation` | sums and the row tabulation loops |
| `Desktop` | the desktop client |
| `Mobile` | the mobile client |
| `Server` | the server routes |
| `Agreement` | how the two clients relate |

Amounts are integers (think cents).

### Behaviour the model keeps

- **Transaction types.** Every type other than exactly `"income"` is added to the expense total (public/script.js:82, mobile_app/script.js:110).
- **Desktop payment check.** It lets text that is not a number through (`NaN <= 0` is false, public/script.js:231).
- **Mobile payment check.** It refuses only a blank field (mobile_app/script.js:209).
- **Server.** It makes no sign check (server.js:103). A negative payment therefore increases a debt.
- **Two readings of one payment text.** The desktop checks `Number(raw)` and the server subtracts `parseFloat(raw)`. They differ in two ways. On `0x`, `0b` and `0o` text, "0x10" passes the check as 16, and the server reads 0 and leaves a positive debt as it was. On text with a non-numeric suffix, "-5abc" is `NaN` to `Number`, so the check lets it through, and the server reads -5 and adds 5 to the debt.

## Model

| member | source | states |
|---|---|---|
| Desktop.View | public/script.js:63-155 | the balance is income − expense; the table is the list of entries exactly on the daily filter, and that list holds exactly the transactions dated the selected text |
| Desktop.AnchorDate | public/script.js:91 | `new Date(selY, selM-1, selD)` is a valid date of year 100 to 9999 whose day number is at least 7, so the six steps back stay in the calendar |
| Desktop.MonthPrefix | public/script.js:109 | the month prefix is the year prefix, a dash and two decimal digits that read back as the anchor's month |
| Desktop.YearPrefix | public/script.js:133 | `String(selY)`: one to four digits, reading back as the anchor's year, with no leading zero unless the year is 0 |
| Desktop.WithPrefix | public/script.js:111 | `filter(t => t.date.startsWith(p))` keeps exactly the transactions whose date starts with the prefix |
| Desktop.WeekNumber | public/script.js:118-119 | `Math.ceil(day/7)` capped at 4: at most 4, below 1 exactly for days below 1, and otherwise week w holds days 7(w−1)+1 to 7w, week 4 from day 22 on |
| Desktop.WeekOf | public/script.js:117-119 | the bucket is NaN exactly when the day field does not parse; a bucket is at most 4, and 1 or more exactly when the day is |
| Desktop.RenderDashboard | public/script.js:63-155 | the filter/loop implementation returns exactly the dashboard `View` for every period and every anchor `AnchorFits` admits (a full-date with a four-digit year on the weekly view, the `YYYY-MM-DD` shape on the monthly and yearly views) |
| Desktop.TotalsCountEachTransactionOnce | public/script.js:77-147 | in every period the displayed income and expense are the sum over the counted transactions, each counted once |
| Desktop.AppendingATransaction | public/script.js:77-154 | one more loaded transaction moves the totals by its contribution when it is counted, and not at all otherwise |
| Desktop.NonIncomeIsExpense | public/script.js:82 | a counted transaction whose type is not exactly "income" raises the expense total only |
| Desktop.ViewShape | public/script.js:96-154 | balance = income − expense; daily shows entries, the others 7/4/12 bucket rows labelled by target date, "Week w", month name; every row's revenue is income − expense |
| Desktop.DailyMatchesExactly | public/script.js:77 | a transaction is listed and counted on the daily view iff its date text equals the selected text |
| Desktop.PreviousDayNotShown | public/script.js:77 | a 2025-11-20 transaction is not shown on 2025-11-21 |
| Desktop.WeeklyTargets | public/script.js:89-94 | the loop pushes the seven target date texts, in order |
| Desktop.TargetDateStepsBack | public/script.js:90-93 | the i-th target text is a valid date whose day number is the anchor's minus i |
| Desktop.TargetDatesDistinct | public/script.js:89-94 | the seven target texts are pairwise different |
| Desktop.TargetDatesDescend | public/script.js:89-94 | a later target is a strictly earlier calendar date |
| Desktop.FirstTargetIsAnchor | public/script.js:91-93 | for years 100 onwards the first target is the anchor text itself |
| Desktop.TwoDigitYearAnchor | public/script.js:91 | an anchor year 0000-0099 is read by the Date constructor as 1900-1999 |
| Desktop.WeekOfSecondMarch2025 | public/script.js:89-94 | from 2025-03-02 the week steps back across a 28-day February: 03-02 … 02-24 |
| Desktop.WeeklyCountedIff | public/script.js:96-99 | counted in the week iff the date text is one of the seven targets |
| Desktop.WeeklyRowGains | public/script.js:96-103 | weekly row i gains a new transaction iff its date is the i-th target |
| Desktop.FieldsOfDateText | public/script.js:117 | on a `YYYY-MM-DD` text the day and month fields parse to their numbers |
| Desktop.WeekBuckets | public/script.js:117-119 | days 1-7, 8-14, 15-21 and 22+ land in weeks 1-4; a day below 1 in none |
| Desktop.MonthlyCountedIff | public/script.js:109-121 | counted in the month iff the prefix matches and the day field parses to 1 or more |
| Desktop.MonthlyRowGains | public/script.js:114-123 | monthly row w gains a transaction iff it has the prefix and bucket w |
| Desktop.FifteenthInWeekThree | public/script.js:109-121 | with anchor 2025-11-15 a 2025-11-15 transaction is counted in week 3 |
| Desktop.TwentyNinthInWeekFour | public/script.js:109-121 | with anchor 2025-11-15 a 2025-11-29 transaction is counted in week 4 |
| Desktop.FourDigitYearPrefixes | public/script.js:109 | for years 1000 on the month and year prefixes are the anchor's first 7 and 4 characters |
| Desktop.LeadingZeroYearPrefix | public/script.js:133 | `String(Number("0999"))` makes the year prefix "999" and the month prefix "999-05" |
| Desktop.YearlyCountedIff | public/script.js:133-142 | counted in the year iff the prefix matches and the month field parses to 1..12 |
| Desktop.MonthKeysAreTheMonths | public/script.js:136-141 | the twelve month keys are exactly the numbers 1..12 |
| Desktop.YearlyRowGains | public/script.js:136-145 | yearly row m gains a transaction iff it has the year prefix and month m |
| Desktop.NewYearsEveInDecember | public/script.js:130-145 | with anchor 2025-01-01 a 2025-12-31 transaction changes the December row and no other |
| Desktop.Page.FetchData | public/script.js:56-60 | the fetched rows replace the loaded list and the dashboard is drawn from them |
| Desktop.Page.Redraw | public/script.js:63-155 | redrawing gives the view of the loaded list |
| Desktop.CheckPayment | public/script.js:231 | refused iff the text is blank or its number is ≤ 0; otherwise the raw text is posted |
| Desktop.PostedPaymentIsPositiveOrNaN | public/script.js:231 | what gets through is non-blank and positive or not a number |
| Desktop.NonNumericTextIsPosted | public/script.js:231 | "abc" is posted |
| Mobile.View | mobile_app/script.js:93-126 | the balance shown is income − expense |
| Mobile.RenderDashboard | mobile_app/script.js:93-126 | the two `forEach` loops produce exactly `View` |
| Mobile.SummaryIgnoresFilterAndDate | mobile_app/script.js:112-119 | off the daily filter neither filter nor date matters; totals are the sum of everything loaded |
| Mobile.AppendingATransaction | mobile_app/script.js:101-119 | one more transaction adds its contribution, except on a daily view of another date |
| Mobile.NonIncomeIsExpense | mobile_app/script.js:110-118 | a counted non-"income" transaction raises the expense only |
| Mobile.CheckPayment | mobile_app/script.js:209 | refused iff the text is blank; otherwise the raw text is posted |
| Mobile.UncheckedPayments | mobile_app/script.js:209 | "0", "-5" and "abc" are all posted |
| Agreement.DailyViewsAgree | mobile_app/script.js:101-111 | on the daily filter both clients show the same list and figures |
| Agreement.OtherFiltersAgreeWhenAllCount | mobile_app/script.js:112-119 | off daily the mobile totals equal the desktop's when every loaded transaction is counted by the desktop |
| Agreement.AllCounted | public/script.js:96-147 | when every transaction is counted the counted sum is the sum of all |
| Agreement.NoneCounted | public/script.js:96-147 | when none is counted the counted sum is zero |
| Agreement.OutOfMonthDrift | mobile_app/script.js:112-119 | with no transaction in the month the desktop shows zeros while the mobile counts them all |
| Agreement.MonthlyDriftExample | public/script.js:109-111 | a 2024-01-05 transaction is outside the month of 2025-11-15 |
| Agreement.DesktopNumericPaymentNeverGrowsDebt | public/script.js:231 | a numeric payment the desktop lets through never makes a positive debt larger on the server; plain numerals make it smaller or settle it, and `0x`/`0b`/`0o` text leaves it unchanged |
| Agreement.HexPaymentLeavesDebtUnchanged | server.js:103-107 | "0x10" passes the desktop check as 16, the server reads 0, and a positive debt is updated to its old amount |
| Agreement.NonNumericSuffixGrowsDebt | public/script.js:231 | "-5abc" passes the desktop check as `NaN`, `parseFloat` reads -5, and the server adds 5 to a positive debt |
| Agreement.MobileNegativePaymentGrowsDebt | mobile_app/script.js:209 | the mobile form lets "-5" through and the server adds 5 to the debt |
| Aggregation.Contribution | public/script.js:82 | a transaction's whole amount goes to income when its type is exactly "income", and to expense otherwise |
| Aggregation.OnDate | public/script.js:77 | the filter keeps exactly the transactions of that date text |
| Aggregation.Accumulate | public/script.js:98-100 | the loop sums exactly the transactions whose key matches |
| Aggregation.AccumulateAll | mobile_app/script.js:116-119 | the loop sums every transaction into income or expense |
| Aggregation.Tabulate | public/script.js:96-103 | the row loop builds one row per key and accumulates the totals of the rows |
| Aggregation.RowsTotalIsSumIn | public/script.js:102 | with distinct keys the rows' totals are the sum over transactions with any key, each once |
| Aggregation.KeyedRowsShape | public/script.js:101 | row i is labelled names[i] and its revenue is income − expense |
| Aggregation.KeyedRowGains | public/script.js:98-99 | a new transaction is added to exactly the rows whose key it has |
| Aggregation.SumInAddKey | public/script.js:102 | adding a new key adds that key's sum |
| Aggregation.SumAllSnoc | mobile_app/script.js:116-119 | one more transaction adds its contribution to the sum of all |
| Calendar.DaysBack | public/script.js:91-92 | moving back i days gives the valid date whose day number is i less |
| Calendar.PrevDay | public/script.js:92 | the previous calendar day is valid and earlier |
| Calendar.PrevDayNumber | public/script.js:92 | the previous day's number is one less |
| Calendar.DaysBackDescending | public/script.js:91-92 | moving back further lands strictly earlier |
| Calendar.DayNumberMonotone | public/script.js:91-92 | an earlier date has a smaller day number |
| Calendar.DayNumberInjective | public/script.js:91-92 | different dates have different day numbers |
| Calendar.DaysInMonth | public/script.js:92 | 28 to 31 days; February has 29 iff the year is leap |
| Calendar.Fields | public/script.js:68 | the three numbers read from a date text are in range |
| Calendar.Format | public/script.js:93 | `toISOString().split('T')[0]` is ten characters |
| Calendar.FormatFields | public/script.js:68-93 | formatting what was read gives back the full-date text |
| Calendar.FieldsFormat | public/script.js:68-93 | reading what was formatted gives back the date |
| Calendar.FormatInjective | public/script.js:93 | different dates format differently |
| Calendar.SplitDate | public/script.js:68 | `split('-')` of a full-date is its year, month and day text |
| Calendar.Constructed | public/script.js:91 | the Date constructor keeps month and day |
| Calendar.ConstructedValid | public/script.js:91 | every full-date except 0000-02-29 constructs a valid date |
| Calendar.YearZeroLeapDayNeedsNormalising | public/script.js:91 | 0000-02-29 is a full-date but 1900-02-29 does not exist |
| JsText.Split | public/script.js:68 | `split` gives at least one piece and no piece contains the separator |
| JsText.JoinSplit | public/script.js:68 | joining the pieces gives back the text |
| JsText.SplitAtFirstSeparator | public/script.js:117 | the first piece is the text before the first separator |
| JsText.DecimalString | public/script.js:109 | `String(n)` is digits without a leading zero unless n is 0 |
| JsText.DecimalStringRoundTrip | public/script.js:109 | `Number(String(n)) == n` |
| JsText.PadStart | public/script.js:109 | `padStart` keeps the text at the end and fills the front up to the width |
| JsText.ZeroPaddedRoundTrip | public/script.js:109 | the zero-padded numeral reads back as n |
| JsText.DigitsRoundTrip | public/script.js:68-109 | a fixed-width digit field is the zero-padded numeral of its value |
| JsText.DigitsAreCanonicalPadded | public/script.js:68-109 | every digit string is its value's numeral behind leading zeros |
| JsText.LeadingZerosIgnored | public/script.js:68 | leading zeros do not change `Number` |
| JsText.TrimStart | public/script.js:117 | what `parseInt` skips is exactly the leading JavaScript white space |
| JsText.DigitPrefix | public/script.js:117 | the longest prefix of digits of the radix |
| JsText.ParseIntOfDigits | public/script.js:117 | `parseInt` of a run of digits is its decimal value |
| JsText.ParseIntOfZeroPadded | public/script.js:117 | `parseInt` of a zero-padded numeral is its number |
| JsText.ParseIntSkipsSpace | public/script.js:117 | leading white space does not change `parseInt` |
| JsText.ParseIntOfUndefined | public/script.js:117 | `parseInt(undefined)` is NaN |
| JsText.ParseIntReadsHexPrefix | public/script.js:140 | `parseInt("0x0c")` is 12 |
| JsText.RadixLiteralReadsZero | server.js:103 | `parseFloat` of `0x`, `0b` or `0o` text reads only the leading zero |
| JsText.ParseIntSkipsSpaceAndJunk | public/script.js:117 | `parseInt(" 7th")` is 7 |
| Server.Without | server.js:117-118 | `DELETE … WHERE col = k` keeps exactly the rows whose column is not k |
| Server.Only | server.js:85 | `SELECT … WHERE user_id = u` keeps exactly the rows whose owner is u |
| Server.WithoutKeepsUnique | server.js:117-130 | deleting rows keeps ids distinct |
| Server.WithoutUniqueKey | server.js:105 | with distinct ids, deleting by row i's id removes that row only |
| Server.WithoutAbsentKey | server.js:130 | deleting a key no row has changes nothing |
| Server.FirstDebt | server.js:101 | the lookup finds a debt with that id and owner, and none exactly when no such row exists |
| Server.FirstDebtIsUnique | server.js:101 | with distinct ids the lookup finds that row |
| Server.FindUser | server.js:115 | the lookup finds a user with that id, and none exactly when no such row exists |
| Server.SetAmount | server.js:107 | the update keeps the table's length |
| Server.SetAmountOfUniqueKey | server.js:107 | with distinct ids the update changes the amount of that row and nothing else |
| Server.ApplyPayment | server.js:103-107 | settled iff amount − payment ≤ 0, otherwise updated to that positive remainder |
| Server.RemainingIsPositive | server.js:104-107 | settling means the payment is at least the amount; a stored remainder is the amount less the payment, always above zero, and below the amount when the payment is positive |
| Server.NegativePaymentGrowsDebt | server.js:103 | a negative payment increases the debt |
| Server.PaymentExamples | server.js:103-107 | 50 − 50 and 50 − 60 settle; 50 − 20 leaves 30 |
| Server.UnauthenticatedChangesNothing | server.js:69-75 | with no or a zero session user every route answers 401 and changes nothing |
| Server.DebtUpdateNotFound | server.js:101-102 | no debt with that id owned by the caller: 404, nothing changes |
| Server.DebtUpdateSettles | server.js:104-105 | paying at least the amount deletes exactly that debt row and answers "Settled" |
| Server.DebtUpdateUpdates | server.js:106-107 | paying less changes that row's amount to the remainder and answers "Updated" |
| Server.DebtUpdateKeepsKeys | server.js:98-110 | ids stay distinct |
| Server.DebtUpdateKeepsAmountsPositive | server.js:103-107 | if every debt is positive it stays so |
| Server.DeleteRefusedOnBadPassword | server.js:114-116 | no user row or a wrong password: 403 on both delete routes, nothing changes |
| Server.DeleteDataRemovesExactlyTheCallersRows | server.js:117-119 | exactly the caller's transactions and debts go; users and other users' rows stay; "Wiped" |
| Server.DeleteAccountAlsoRemovesTheUser | server.js:128-132 | the same rows plus the caller's user row go, the session ends; "Deleted" |
| Server.DeletesKeepKeys | server.js:112-134 | both delete routes keep ids distinct |
| Server.TextLeTotal | server.js:85 | the BINARY collation order is total |
| Server.TextLeTransitive | server.js:85 | the BINARY collation order is transitive |
| Server.InsertByDate | server.js:85 | inserting keeps the list latest-first and adds exactly that row |
| Server.SortByDate | server.js:85 | the result is latest-first and a permutation of the input |
| Server.ListingHoldsExactlyOwnRows | server.js:84-86 | a listing holds exactly the caller's rows |
| Server.SortedOwnRowsAreAListing | server.js:84-86 | a listing exists for every table and user |
| Server.Database.constructor | server.js:36-38 | a new database file starts with three empty tables, which are well keyed |
| Server.Database.DebtUpdate | server.js:98-110 | the new tables and the answer are those of the reply function; ids stay distinct |
| Server.Database.DeleteData | server.js:112-121 | the new tables and the answer are those of the reply function; ids stay distinct |
| Server.Database.DeleteAccount | server.js:123-134 | the new tables, answer and session are those of the reply function |
| Server.Database.Transactions | server.js:84-86 | 401 iff not authenticated; otherwise a listing of exactly the caller's rows, latest date first |

## Left out

- HTML, DOM reads and writes, `alert`, `fetch`/`safeFetch`, Express routing, cookies and session storage: only the values they carry are modelled.
- The mobile `fetchData` and every route other than `/debt-update`, `/delete-data`, `/delete-account` and `/transactions` (logins, inserts, the debt listing) are not part of this model.
- Amounts are integers. The `REAL` columns, floating-point sums and rounding are not modelled. On the server `parseFloat(payment_amount)` is an integer parameter, so a payment that is `NaN` (which leaves `newAmount` `NaN` and takes the update branch) is not modelled.
- `Number(raw)` in the desktop payment check is a parameter (`JsNumber`: `NaN` or an integer). Its parsing of decimal points and exponents is not modelled.
- Agreement.DesktopNumericPaymentNeverGrowsDebt: `Number(raw)` stays a parameter. The lemma assumes that it equals `parseFloat`'s whole-number reading (`JsText.ParseFloat`) except on `0x`/`0b`/`0o` text. That holds for integral decimal numerals with white space and a sign. It does not hold for text with a fraction or an exponent ("1e3"), which the lemma does not cover.
- JsText.ParseFloat reads only the whole-number part: fractions, exponents and "Infinity" are not modelled.
- `bcrypt.compare` is a function parameter `matches`. Its asynchrony is not modelled.
- Desktop.AnchorDate: `toISOString` converts to UTC. The model assumes a time zone at or behind UTC, so that midnight local time keeps its calendar date. A time zone ahead of UTC shifts each weekly target back one day, and that is not modelled.
- Desktop.View, Desktop.RenderDashboard: the weekly view requires a full-date anchor with a four-digit year, and the monthly and yearly views require the `YYYY-MM-DD` shape. Left out are an empty or invalid anchor, an anchor whose year has five or more digits (a date input can hold "12345-01-01"), and the anchor "0000-02-29", which needs the Date constructor's normalisation.
- Null or non-string `date` values of transactions are not modelled. Dates are strings.
- The server stores `type` and `amount` from the request body unchecked (server.js:79-81). A transaction's type is a string and its amount an integer in the model. A null or non-string type is left out: `t.type.toUpperCase()` (public/script.js:81) then throws and the daily view draws nothing. A non-number amount, which JavaScript `+=` would concatenate as text, is also left out.
- The filter control's value is the `Period` enumeration. An unknown value is left out. On the desktop no branch of public/script.js:75-148 runs for it, so the table is empty and the totals are zero. On the mobile it takes the `else` branch (mobile_app/script.js:112-119) and shows the summary of every loaded transaction.
- Server.Database.DebtUpdate: the `db.run` statements are applied in order and atomically. The `err` argument of the database callbacks (treated as not found in `/debt-update`, ignored elsewhere) is not modelled.
- Server.Database.Transactions: `ORDER BY date DESC` leaves rows with equal dates in an unspecified order. The contract states latest-first and a permutation of the caller's rows, not one particular tie order.
- Server.Authenticated: a session user id is an integer, and only 0 is falsy among integers. The string-to-integer affinity of the `id` columns is not modelled.
- Server.Database.DeleteAccount: `req.session.destroy()` is modelled as the session becoming empty.
- Server.Database.constructor: `./finance.db` is opened (server.js:8) and its tables are created only if missing (server.js:36-38). An existing file keeps its rows. The constructor models a new file, and every other state the methods start from is any `Valid` database.

=== FILE: agreement.dfy ===
/**
 * How the two dashboards and the server fit together: where the mobile
 * dashboard agrees with the desktop one, where it drifts, and what reaches the
 * debt ledger through each payment form.
 */
module Agreement {
  import opened Wrappers
  import opened JsText
  import opened Records
  import opened Aggregation
  import Desktop
  import Mobile
  import Server

  /** On the daily filter both dashboards show the same list and the same figures. */
  lemma DailyViewsAgree(txs: seq<Transaction>, day: string)
    ensures Mobile.View(txs, Daily, day) == Desktop.View(txs, Daily, day)
  {
  }

  /** On any other filter the mobile totals are the desktop's when the desktop counts every transaction. */
  lemma OtherFiltersAgreeWhenAllCount(txs: seq<Transaction>, period: Period, anchor: string)
    requires period != Daily && Desktop.AnchorFits(period, anchor)
    requires forall t :: t in txs ==> Desktop.Counted(period, anchor, t)
    ensures Mobile.View(txs, period, anchor).totalIncome == Desktop.View(txs, period, anchor).totalIncome
    ensures Mobile.View(txs, period, anchor).totalExpense == Desktop.View(txs, period, anchor).totalExpense
  {
    Desktop.TotalsCountEachTransactionOnce(txs, period, anchor);
    AllCounted(txs, period, anchor);
  }

  lemma {:induction false} AllCounted(txs: seq<Transaction>, period: Period, anchor: string)
    requires Desktop.AnchorFits(period, anchor)
    requires forall t :: t in txs ==> Desktop.Counted(period, anchor, t)
    ensures Desktop.SumCounted(txs, period, anchor) == SumAll(txs)
    decreases |txs|
  {
    if txs != [] {
      var front := txs[..|txs| - 1];
      assert forall t :: t in front ==> t in txs;
      AllCounted(front, period, anchor);
    }
  }

  /** Transactions outside the selected month: the desktop month shows nothing, the mobile summary counts them all. */
  lemma OutOfMonthDrift(txs: seq<Transaction>, anchor: string)
    requires Desktop.AnchorFits(Monthly, anchor)
    requires forall t :: t in txs ==> !StartsWith(t.date, Desktop.MonthPrefix(anchor))
    ensures Desktop.View(txs, Monthly, anchor).totalIncome == 0 && Desktop.View(txs, Monthly, anchor).totalExpense == 0
    ensures Totals(Mobile.View(txs, Monthly, anchor).totalIncome, Mobile.View(txs, Monthly, anchor).totalExpense) == SumAll(txs)
  {
    Desktop.TotalsCountEachTransactionOnce(txs, Monthly, anchor);
    NoneCounted(txs, Monthly, anchor);
  }

  lemma {:induction false} NoneCounted(txs: seq<Transaction>, period: Period, anchor: string)
    requires Desktop.AnchorFits(period, anchor)
    requires forall t :: t in txs ==> !Desktop.Counted(period, anchor, t)
    ensures Desktop.SumCounted(txs, period, anchor) == Zero
    decreases |txs|
  {
    if txs != [] {
      var front := txs[..|txs| - 1];
      assert forall t :: t in front ==> t in txs;
      NoneCounted(front, period, anchor);
    }
  }

  /** For instance 2024-01-05 against the month of 2025-11-15. */
  lemma MonthlyDriftExample(t: Transaction, anchor: string)
    requires anchor == "2025-11-15" && t.date == "2024-01-05"
    ensures Desktop.AnchorFits(Monthly, anchor) && !StartsWith(t.date, Desktop.MonthPrefix(anchor))
  {
    Desktop.NovemberPrefix(anchor);
    assert t.date[3] != "2025-11"[3];
  }

  /**
   * A payment the desktop form lets through as a number never makes the debt
   * larger. The form checks `Number(raw)` (`asNumber`), the server subtracts
   * `parseFloat(raw)` (`parsed`): the two agree on plain numerals, while on
   * `0x`, `0b` and `0o` text `parseFloat` stops after the leading zero, so the
   * debt is then left as it was.
   */
  lemma DesktopNumericPaymentNeverGrowsDebt(raw: string, asNumber: int, parsed: int, amount: int)
    requires Desktop.CheckPayment(raw, Num(asNumber)).Posted? && 0 < amount
    requires ParseFloat(raw) == Some(parsed)
    requires !RadixLiteral(raw) ==> parsed == asNumber
    ensures match Server.ApplyPayment(amount, parsed)
      case Settled => !RadixLiteral(raw)
      case Updated(r) => r <= amount && (!RadixLiteral(raw) ==> r < amount) && (RadixLiteral(raw) ==> r == amount)
  {
    if RadixLiteral(raw) {
      RadixLiteralReadsZero(raw);
    }
  }

  /** "0x10" passes the desktop check as sixteen, yet the server reads zero and a positive debt stays. */
  lemma HexPaymentLeavesDebtUnchanged(raw: string, amount: int)
    requires raw == "0x10" && 0 < amount
    ensures Desktop.CheckPayment(raw, Num(16)).Posted?
    ensures RadixLiteral(raw) && ParseFloat(raw) == Some(0)
    ensures Server.ApplyPayment(amount, 0) == Server.Updated(amount)
  {
    NothingToTrim(raw);
    RadixLiteralReadsZero(raw);
  }

  /**
   * "-5abc" is not a number, and `NaN <= 0` is false, so the desktop check
   * posts it; `parseFloat` reads the leading -5, and the server adds five.
   */
  lemma NonNumericSuffixGrowsDebt(amount: int)
    requires 0 < amount
    ensures Desktop.CheckPayment("-5abc", NaN).Posted?
    ensures !RadixLiteral("-5abc") && ParseFloat("-5abc") == Some(-5)
    ensures Server.ApplyPayment(amount, -5) == Server.Updated(amount + 5)
  {
    var raw := "-5abc";
    NothingToTrim(raw);
    var u := raw[1..];
    assert u == "5abc";
    assert u[1..][0] == 'a';
    assert DigitPrefix(u[1..], 10) == [];
    assert DigitPrefix(u, 10) == "5";
    assert DecimalValue("5") == 5 by { assert "5"[..0] == []; }
  }

  /** The mobile form lets "-5" through, and the server then adds five to the debt. */
  lemma MobileNegativePaymentGrowsDebt(amount: int)
    requires 0 < amount
    ensures Mobile.CheckPayment("-5").Posted?
    ensures Server.ApplyPayment(amount, -5) == Server.Updated(amount + 5)
  {
  }
}

=== FILE: calendar.dfy ===
/**
 * Proleptic Gregorian calendar dates, as the weekly dashboard steps backwards
 * through them, and their `YYYY-MM-DD` text form (the full-date of section 5.6 of
 * RFC 3339, which is also what `Date.prototype.toISOString` starts with).
 */
module Calendar {
  import opened JsText

  /** The leap year rule of Appendix C of RFC 3339. */
  predicate IsLeapYear(year: int) {
    year % 4 == 0 && (year % 100 != 0 || year % 400 == 0)
  }

  function DaysInMonth(year: int, month: int): (n: int)
    requires 1 <= month <= 12
    ensures 28 <= n <= 31
    ensures month == 2 ==> (n == 29 <==> IsLeapYear(year))
  {
    if month == 2 then (if IsLeapYear(year) then 29 else 28)
    else if month == 4 || month == 6 || month == 9 || month == 11 then 30
    else 31
  }

  function DaysInYear(year: int): int {
    if IsLeapYear(year) then 366 else 365
  }

  datatype Date = Date(year: int, month: int, day: int)

  /** A calendar day from 0001-01-01 on. */
  predicate Valid(d: Date) {
    1 <= d.year && 1 <= d.month <= 12 && 1 <= d.day <= DaysInMonth(d.year, d.month)
  }

  /** Chronological order: by year, then month, then day. */
  predicate Before(a: Date, b: Date) {
    || a.year < b.year
    || (a.year == b.year && (a.month < b.month || (a.month == b.month && a.day < b.day)))
  }

  // ---------------------------------------------------------------------------
  // Day numbers: how many days lie between 0001-01-01 and a date. They are the
  // reference against which stepping backwards is checked.

  function DaysBeforeYear(year: int): nat
    requires 1 <= year
  {
    if year == 1 then 0 else DaysBeforeYear(year - 1) + DaysInYear(year - 1)
  }

  function DaysBeforeMonth(year: int, month: int): nat
    requires 1 <= month <= 12
  {
    [0, 31, 59, 90, 120, 151, 181, 212, 243, 273, 304, 334][month - 1]
      + (if month > 2 && IsLeapYear(year) then 1 else 0)
  }

  function DayNumber(d: Date): nat
    requires Valid(d)
  {
    DaysBeforeYear(d.year) + DaysBeforeMonth(d.year, d.month) + d.day - 1
  }

  lemma MonthsAddUp(year: int, month: int)
    requires 1 <= month <= 12
    ensures month < 12 ==> DaysBeforeMonth(year, month + 1) == DaysBeforeMonth(year, month) + DaysInMonth(year, month)
    ensures month == 12 ==> DaysBeforeMonth(year, month) + DaysInMonth(year, month) == DaysInYear(year)
  {
  }

  lemma {:induction false} DaysBeforeYearGrows(a: int, b: int)
    requires 1 <= a <= b
    ensures DaysBeforeYear(a) + 365 * (b - a) <= DaysBeforeYear(b)
    decreases b - a
  {
    if a < b {
      DaysBeforeYearGrows(a, b - 1);
    }
  }

  lemma DayNumberLowerBound(d: Date)
    requires Valid(d)
    ensures 365 * (d.year - 1) <= DayNumber(d)
  {
    DaysBeforeYearGrows(1, d.year);
  }

  lemma DayWithinYear(d: Date)
    requires Valid(d)
    ensures DaysBeforeMonth(d.year, d.month) + d.day <= DaysInYear(d.year)
  {
    var y := d.year;
    if d.month < 12 {
      MonthsAddUp(y, d.month);
      LaterMonthStartsLater(y, d.month + 1, 12);
      MonthsAddUp(y, 12);
    } else {
      MonthsAddUp(y, 12);
    }
  }

  lemma {:induction false} LaterMonthStartsLater(year: int, m1: int, m2: int)
    requires 1 <= m1 <= m2 <= 12
    ensures DaysBeforeMonth(year, m1) <= DaysBeforeMonth(year, m2)
    ensures m1 < m2 ==> DaysBeforeMonth(year, m1) + DaysInMonth(year, m1) <= DaysBeforeMonth(year, m2)
    decreases m2 - m1
  {
    if m1 < m2 {
      MonthsAddUp(year, m1);
      LaterMonthStartsLater(year, m1 + 1, m2);
    }
  }

  /** Day numbers follow the calendar: an earlier date has a smaller number. */
  lemma DayNumberMonotone(a: Date, b: Date)
    requires Valid(a) && Valid(b) && Before(a, b)
    ensures DayNumber(a) < DayNumber(b)
  {
    if a.year < b.year {
      DayWithinYear(a);
      DaysBeforeYearGrows(a.year + 1, b.year);
    } else if a.month < b.month {
      LaterMonthStartsLater(a.year, a.month, b.month);
    }
  }

  /** Different dates have different day numbers. */
  lemma DayNumberInjective(a: Date, b: Date)
    requires Valid(a) && Valid(b) && DayNumber(a) == DayNumber(b)
    ensures a == b
  {
    if Before(a, b) {
      DayNumberMonotone(a, b);
    } else if Before(b, a) {
      DayNumberMonotone(b, a);
    }
  }

  // ---------------------------------------------------------------------------
  // Stepping backwards, with month and year rollover

  /** The calendar day before `d`. */
  function PrevDay(d: Date): (r: Date)
    requires Valid(d) && d != Date(1, 1, 1)
    ensures Valid(r) && Before(r, d)
  {
    if d.day > 1 then Date(d.year, d.month, d.day - 1)
    else if d.month > 1 then Date(d.year, d.month - 1, DaysInMonth(d.year, d.month - 1))
    else Date(d.year - 1, 12, 31)
  }

  lemma PrevDayNumber(d: Date)
    requires Valid(d) && d != Date(1, 1, 1)
    ensures DayNumber(PrevDay(d)) == DayNumber(d) - 1
  {
    if d.day == 1 {
      if d.month > 1 {
        MonthsAddUp(d.year, d.month - 1);
      } else {
        MonthsAddUp(d.year - 1, 12);
        assert DaysBeforeYear(d.year) == DaysBeforeYear(d.year - 1) + DaysInYear(d.year - 1);
      }
    }
  }

  /** `d` moved back `i` calendar days: the date whose day number is `i` less. */
  function DaysBack(d: Date, i: nat): (r: Date)
    requires Valid(d) && i <= DayNumber(d)
    ensures Valid(r) && DayNumber(r) == DayNumber(d) - i
    ensures r.year <= d.year
    ensures 0 < i ==> Before(r, d)
  {
    if i == 0 then d
    else
      var later := DaysBack(d, i - 1);
      PrevDayNumber(later);
      PrevDay(later)
  }

  /** Moving back further lands strictly earlier. */
  lemma DaysBackDescending(d: Date, i: nat, j: nat)
    requires Valid(d) && i < j <= DayNumber(d)
    ensures Before(DaysBack(d, j), DaysBack(d, i))
  {
    var a, b := DaysBack(d, j), DaysBack(d, i);
    if !Before(a, b) {
      if a == b {
      } else {
        assert Before(b, a);
        DayNumberMonotone(b, a);
      }
    }
  }

  // ---------------------------------------------------------------------------
  // Text form YYYY-MM-DD

  /** `toISOString().split('T')[0]`: four-digit year, two-digit month and day. */
  function Format(d: Date): (s: string)
    requires 0 <= d.year <= 9999 && 1 <= d.month <= 12 && 1 <= d.day <= 31
    ensures |s| == 10
  {
    DecimalStringLength(d.year);
    DecimalStringLength(d.month);
    DecimalStringLength(d.day);
    ZeroPadded(d.year, 4) + "-" + ZeroPadded(d.month, 2) + "-" + ZeroPadded(d.day, 2)
  }

  /** The layout of a full-date: digits, with dashes at offsets 4 and 7. */
  predicate IsDateShape(s: string) {
    && |s| == 10 && s[4] == '-' && s[7] == '-'
    && AllDecimalDigits(s[..4]) && AllDecimalDigits(s[5..7]) && AllDecimalDigits(s[8..])
  }

  /** The shape checked character by character. */
  lemma DateShapeByChars(s: string)
    requires |s| == 10 && s[4] == '-' && s[7] == '-'
    requires IsDecimalDigit(s[0]) && IsDecimalDigit(s[1]) && IsDecimalDigit(s[2]) && IsDecimalDigit(s[3])
    requires IsDecimalDigit(s[5]) && IsDecimalDigit(s[6]) && IsDecimalDigit(s[8]) && IsDecimalDigit(s[9])
    ensures IsDateShape(s)
  {
    var y, m, d := s[..4], s[5..7], s[8..];
    assert y[0] == s[0] && y[1] == s[1] && y[2] == s[2] && y[3] == s[3];
    assert m[0] == s[5] && m[1] == s[6];
    assert d[0] == s[8] && d[1] == s[9];
  }

  /** The three numbers `s.split('-').map(Number)` reads from a full-date. */
  function Fields(s: string): (d: Date)
    requires IsDateShape(s)
    ensures 0 <= d.year <= 9999 && 0 <= d.month <= 99 && 0 <= d.day <= 99
  {
    DecimalValueBound(s[..4]);
    DecimalValueBound(s[5..7]);
    DecimalValueBound(s[8..]);
    assert Pow10(4) == 10000 && Pow10(2) == 100;
    Date(DecimalValue(s[..4]), DecimalValue(s[5..7]), DecimalValue(s[8..]))
  }

  /** A full-date of RFC 3339: the shape, a month 01-12 and a day that month has. */
  predicate IsFullDate(s: string) {
    IsDateShape(s) && 1 <= Fields(s).month <= 12 && 1 <= Fields(s).day <= DaysInMonth(Fields(s).year, Fields(s).month)
  }

  /** The three numbers read from a full-date, digit by digit. */
  lemma ReadDate(s: string)
    requires IsDateShape(s)
    ensures Fields(s) == Date(1000 * CharValue(s[0]) + 100 * CharValue(s[1]) + 10 * CharValue(s[2]) + CharValue(s[3]),
                              10 * CharValue(s[5]) + CharValue(s[6]),
                              10 * CharValue(s[8]) + CharValue(s[9]))
  {
    FourDigitValue(s[..4]);
    TwoDigitValue(s[5..7]);
    TwoDigitValue(s[8..]);
  }

  /** A date whose text is known: the text is what `Format` produces. */
  lemma FormatsAs(d: Date, s: string)
    requires IsFullDate(s) && Fields(s) == d
    ensures Format(d) == s
  {
    FormatFields(s);
  }

  /** Formatting what was read gives back the text. */
  lemma FormatFields(s: string)
    requires IsFullDate(s)
    ensures Format(Fields(s)) == s
  {
    var y, m, d := s[..4], s[5..7], s[8..];
    DigitsRoundTrip(y);
    DigitsRoundTrip(m);
    DigitsRoundTrip(d);
    assert Format(Fields(s)) == y + "-" + m + "-" + d;
    DateTextJoin(s);
  }

  lemma DateTextJoin(s: string)
    requires |s| == 10 && s[4] == '-' && s[7] == '-'
    ensures s == s[..4] + "-" + s[5..7] + "-" + s[8..]
  {
  }

  /** Reading what was formatted gives back the date. */
  lemma FieldsFormat(d: Date)
    requires 0 <= d.year <= 9999 && 1 <= d.month <= 12 && 1 <= d.day <= 31
    ensures IsDateShape(Format(d)) && Fields(Format(d)) == d
  {
    DecimalStringLength(d.year);
    DecimalStringLength(d.month);
    DecimalStringLength(d.day);
    DateTextSlices(ZeroPadded(d.year, 4), ZeroPadded(d.month, 2), ZeroPadded(d.day, 2));
    ZeroPaddedRoundTrip(d.year, 4);
    ZeroPaddedRoundTrip(d.month, 2);
    ZeroPaddedRoundTrip(d.day, 2);
  }

  lemma DateTextSlices(y: string, m: string, d: string)
    requires |y| == 4 && |m| == 2 && |d| == 2
    ensures var s := y + "-" + m + "-" + d;
      |s| == 10 && s[..4] == y && s[4] == '-' && s[5..7] == m && s[7] == '-' && s[8..] == d
  {
  }

  lemma FormatInjective(a: Date, b: Date)
    requires 0 <= a.year <= 9999 && 1 <= a.month <= 12 && 1 <= a.day <= 31
    requires 0 <= b.year <= 9999 && 1 <= b.month <= 12 && 1 <= b.day <= 31
    requires Format(a) == Format(b)
    ensures a == b
  {
    FieldsFormat(a);
    FieldsFormat(b);
  }

  /** `s.split('-')` on a full-date is its year, month and day text. */
  lemma SplitDate(s: string)
    requires IsDateShape(s)
    ensures Split(s, '-') == [s[..4], s[5..7], s[8..]]
  {
    assert '-' !in s[..4] by { assert !IsDecimalDigit('-'); }
    assert '-' !in s[5..7] by { assert !IsDecimalDigit('-'); }
    assert '-' !in s[8..] by { assert !IsDecimalDigit('-'); }
    assert s == s[..4] + ['-'] + (s[5..7] + ['-'] + s[8..]);
    SplitAtFirstSeparator(s[..4], '-', s[5..7] + ['-'] + s[8..]);
    SplitAtFirstSeparator(s[5..7], '-', s[8..]);
    SplitWithoutSeparator(s[8..], '-');
  }

  // ---------------------------------------------------------------------------
  // The JavaScript Date constructor

  /**
   * `new Date(y, m - 1, d)` for fields that need no normalisation: a year from 0 to
   * 99 is taken as 1900 to 1999.
   */
  function Constructed(f: Date): (d: Date)
    ensures d.month == f.month && d.day == f.day
  {
    Date(if 0 <= f.year <= 99 then 1900 + f.year else f.year, f.month, f.day)
  }

  /** Years 1 to 99 keep their leap-ness when moved to 1901-1999; only year 0 does not. */
  lemma ConstructedValid(s: string)
    requires IsFullDate(s) && Fields(s) != Date(0, 2, 29)
    ensures Valid(Constructed(Fields(s)))
  {
  }

  /** 0000-02-29 is a full-date, but 1900 has no 29 February. */
  lemma YearZeroLeapDayNeedsNormalising()
    ensures IsFullDate("0000-02-29") && !Valid(Constructed(Fields("0000-02-29")))
  {
    var s := "0000-02-29";
    assert s[..4] == "0000" && s[5..7] == "02" && s[8..] == "29";
    assert DecimalValue("0000") == 0 by { AllZerosValue("0000"); }
    assert DecimalValue("02") == 2 by {
      assert "02"[..1] == "0";
      assert DecimalValue("0") == 0 by { AllZerosValue("0"); }
    }
    assert DecimalValue("29") == 29 by {
      assert "29"[..1] == "2";
      assert DecimalValue("2") == DecimalValue("") * 10 + 2;
    }
  }
}

=== FILE: desktop.dfy ===
/**
 * The desktop dashboard of public/script.js without its HTML: which transactions
 * each period view selects, the rows it shows, the totals under them, and the
 * check the payment form makes before posting a debt payment.
 */
module Desktop {
  import opened Wrappers
  import opened JsText
  import opened Calendar
  import opened Records
  import opened Aggregation

  // ---------------------------------------------------------------------------
  // Weekly: the anchor and the six days before it

  /** An anchor the weekly view can build a `Date` from without normalisation. */
  predicate WeeklyAnchor(anchor: string) {
    IsFullDate(anchor) && Valid(Constructed(Fields(anchor)))
  }

  /** `new Date(selY, selM - 1, selD)` for the anchor's three numbers. */
  function AnchorDate(anchor: string): (d: Date)
    requires WeeklyAnchor(anchor)
    ensures Valid(d) && 100 <= d.year <= 9999 && 7 <= DayNumber(d)
  {
    DayNumberLowerBound(Constructed(Fields(anchor)));
    Constructed(Fields(anchor))
  }

  /** The text pushed into `targetDates` at step `i`: the anchor moved back `i` days. */
  function TargetDate(anchor: string, i: nat): string
    requires WeeklyAnchor(anchor) && i < 7
  {
    Format(DaysBack(AnchorDate(anchor), i))
  }

  function TargetDates(anchor: string): (r: seq<string>)
    requires WeeklyAnchor(anchor)
    ensures |r| == 7
  {
    seq(7, i requires 0 <= i < 7 => TargetDate(anchor, i))
  }

  // ---------------------------------------------------------------------------
  // Monthly: the `YYYY-MM` prefix and four day-of-month buckets

  /** `${selY}-${String(selM).padStart(2,'0')}`. */
  function MonthPrefix(anchor: string): (r: string)
    requires IsDateShape(anchor)
    ensures var y := YearPrefix(anchor);
      |r| == |y| + 3 && r[..|y|] == y && r[|y|] == '-'
    ensures var y := YearPrefix(anchor);
      AllDecimalDigits(r[|y| + 1..]) && DecimalValue(r[|y| + 1..]) == Fields(anchor).month
  {
    var y, m := YearPrefix(anchor), ZeroPadded(Fields(anchor).month, 2);
    DecimalStringLength(Fields(anchor).month);
    ZeroPaddedRoundTrip(Fields(anchor).month, 2);
    MonthPrefixSlices(y, m);
    y + "-" + m
  }

  lemma MonthPrefixSlices(y: string, m: string)
    ensures var r := y + "-" + m;
      |r| == |y| + 1 + |m| && r[..|y|] == y && r[|y|] == '-' && r[|y| + 1..] == m
  {
  }

  function WithPrefix(txs: seq<Transaction>, prefix: string): (r: seq<Transaction>)
    ensures forall t :: t in r <==> t in txs && StartsWith(t.date, prefix)
  {
    if txs == [] then []
    else
      var front, t := txs[..|txs| - 1], txs[|txs| - 1];
      assert txs == front + [t];
      WithPrefix(front, prefix) + (if StartsWith(t.date, prefix) then [t] else [])
  }

  /** `Math.ceil(day / 7)`, lowered to 4 when it is larger. */
  function WeekNumber(day: int): (w: int)
    ensures w <= 4
    ensures day < 1 <==> w < 1
    ensures 1 <= day && w < 4 ==> 7 * (w - 1) < day <= 7 * w
    ensures w == 4 ==> 21 < day
  {
    var w := (day + 6) / 7;
    if w > 4 then 4 else w
  }

  /** The bucket the monthly loop computes for a transaction; `None` when its day is `NaN`. */
  function WeekOf(t: Transaction): (r: Option<int>)
    ensures r.None? <==> ParseInt(SplitField(t.date, '-', 2)).None?
    ensures r.Some? ==> r.value <= 4 && (1 <= r.value <==> 1 <= ParseInt(SplitField(t.date, '-', 2)).value)
  {
    match ParseInt(SplitField(t.date, '-', 2))
    case None => None
    case Some(day) => Some(WeekNumber(day))
  }

  const WeekKeys: seq<Option<int>> := [Some(1), Some(2), Some(3), Some(4)]
  const WeekNames: seq<string> := ["Week 1", "Week 2", "Week 3", "Week 4"]

  // ---------------------------------------------------------------------------
  // Yearly: the year prefix and twelve month rows

  /** `String(selY)`. */
  function YearPrefix(anchor: string): (r: string)
    requires IsDateShape(anchor)
    ensures 1 <= |r| <= 4 && AllDecimalDigits(r) && DecimalValue(r) == Fields(anchor).year
    ensures r[0] == '0' ==> Fields(anchor).year == 0
  {
    DecimalStringRoundTrip(Fields(anchor).year);
    DecimalStringLength(Fields(anchor).year);
    DecimalString(Fields(anchor).year)
  }

  /** `parseInt(t.date.split('-')[1])`. */
  function MonthOf(t: Transaction): Option<int> {
    ParseInt(SplitField(t.date, '-', 1))
  }

  const MonthKeys: seq<Option<int>> :=
    [Some(1), Some(2), Some(3), Some(4), Some(5), Some(6), Some(7), Some(8), Some(9), Some(10), Some(11), Some(12)]
  const MonthNames: seq<string> :=
    ["Jan", "Feb", "Mar", "Apr", "May", "Jun", "Jul", "Aug", "Sep", "Oct", "Nov", "Dec"]

  // ---------------------------------------------------------------------------
  // The whole view

  /**
   * What each period needs of the anchor text: a full-date with a four-digit year
   * that constructs without normalisation on the weekly view, the `YYYY-MM-DD`
   * shape on the monthly and yearly views. A cleared date input ("") and a year
   * of five or more digits are admitted on neither; "0000-02-29" is not admitted
   * on the weekly view.
   */
  predicate AnchorFits(period: Period, anchor: string) {
    match period
    case Daily => true
    case Weekly => WeeklyAnchor(anchor)
    case _ => IsDateShape(anchor)
  }

  function Bucketed(rows: seq<Row>): Dashboard {
    Shown(Buckets(rows), RowsTotal(rows))
  }

  /** The dashboard `renderDashboard` draws for a period and an anchor. */
  function View(txs: seq<Transaction>, period: Period, anchor: string): (v: Dashboard)
    requires AnchorFits(period, anchor)
    ensures v.balance == v.totalIncome - v.totalExpense
    ensures v.table.Entries? <==> period == Daily
    ensures v.table.Entries? ==> forall t :: t in v.table.entries <==> t in txs && t.date == anchor
  {
    match period
    case Daily =>
      var entries := OnDate(txs, anchor);
      Shown(Entries(entries), SumAll(entries))
    case Weekly =>
      var dates := TargetDates(anchor);
      Bucketed(KeyedRows(txs, DateOf, dates, dates))
    case Monthly =>
      Bucketed(KeyedRows(WithPrefix(txs, MonthPrefix(anchor)), WeekOf, WeekKeys, WeekNames))
    case Yearly =>
      Bucketed(KeyedRows(WithPrefix(txs, YearPrefix(anchor)), MonthOf, MonthKeys, MonthNames))
  }

  /** Whether a transaction lands in the view at all (in some row, and so in the totals). */
  predicate Counted(period: Period, anchor: string, t: Transaction)
    requires AnchorFits(period, anchor)
  {
    match period
    case Daily => t.date == anchor
    case Weekly => t.date in TargetDates(anchor)
    case Monthly => StartsWith(t.date, MonthPrefix(anchor)) && WeekOf(t) in WeekKeys
    case Yearly => StartsWith(t.date, YearPrefix(anchor)) && MonthOf(t) in MonthKeys
  }

  /** The reference total: every counted transaction, once. */
  function SumCounted(txs: seq<Transaction>, period: Period, anchor: string): Totals
    requires AnchorFits(period, anchor)
  {
    if txs == [] then Zero
    else
      var t := txs[|txs| - 1];
      SumCounted(txs[..|txs| - 1], period, anchor).Plus(if Counted(period, anchor, t) then Contribution(t) else Zero)
  }

  // ---------------------------------------------------------------------------
  // The totals are the counted transactions, each once

  lemma {:induction false} DailyTotals(txs: seq<Transaction>, day: string)
    ensures SumAll(OnDate(txs, day)) == SumCounted(txs, Daily, day)
    decreases |txs|
  {
    if txs != [] {
      var front, t := txs[..|txs| - 1], txs[|txs| - 1];
      DailyTotals(front, day);
      if t.date == day {
        SumAllSnoc(OnDate(front, day), t);
      } else {
        assert OnDate(txs, day) == OnDate(front, day);
      }
    }
  }

  lemma {:induction false} WeeklyTotals(txs: seq<Transaction>, anchor: string)
    requires WeeklyAnchor(anchor)
    ensures SumIn(txs, DateOf, TargetDates(anchor)) == SumCounted(txs, Weekly, anchor)
    decreases |txs|
  {
    if txs != [] {
      WeeklyTotals(txs[..|txs| - 1], anchor);
    }
  }

  /** Totals of the transactions that carry the prefix and whose key is one of `ks`. */
  function SumPrefixed<K(==)>(txs: seq<Transaction>, p: string, key: Transaction -> K, ks: seq<K>): Totals {
    if txs == [] then Zero
    else
      var t := txs[|txs| - 1];
      SumPrefixed(txs[..|txs| - 1], p, key, ks).Plus(if StartsWith(t.date, p) && key(t) in ks then Contribution(t) else Zero)
  }

  lemma {:induction false} PrefixedTotals<K>(txs: seq<Transaction>, p: string, key: Transaction -> K, ks: seq<K>)
    ensures SumIn(WithPrefix(txs, p), key, ks) == SumPrefixed(txs, p, key, ks)
    decreases |txs|
  {
    if txs != [] {
      var front, t := txs[..|txs| - 1], txs[|txs| - 1];
      PrefixedTotals(front, p, key, ks);
      var data := WithPrefix(front, p);
      if StartsWith(t.date, p) {
        assert (data + [t])[..|data|] == data;
      } else {
        assert WithPrefix(txs, p) == data;
      }
    }
  }

  lemma {:induction false} MonthlyCounted(txs: seq<Transaction>, anchor: string)
    requires IsDateShape(anchor)
    ensures SumCounted(txs, Monthly, anchor) == SumPrefixed(txs, MonthPrefix(anchor), WeekOf, WeekKeys)
    decreases |txs|
  {
    if txs != [] {
      MonthlyCounted(txs[..|txs| - 1], anchor);
    }
  }

  lemma {:induction false} YearlyCounted(txs: seq<Transaction>, anchor: string)
    requires IsDateShape(anchor)
    ensures SumCounted(txs, Yearly, anchor) == SumPrefixed(txs, YearPrefix(anchor), MonthOf, MonthKeys)
    decreases |txs|
  {
    if txs != [] {
      YearlyCounted(txs[..|txs| - 1], anchor);
    }
  }

  /**
   * In every period the displayed income and expense are the sums over the
   * counted transactions, each counted once.
   */
  lemma TotalsCountEachTransactionOnce(txs: seq<Transaction>, period: Period, anchor: string)
    requires AnchorFits(period, anchor)
    ensures var v := View(txs, period, anchor);
      Totals(v.totalIncome, v.totalExpense) == SumCounted(txs, period, anchor)
  {
    match period
    case Daily => DailyTotals(txs, anchor);
    case Weekly => WeeklyViewTotals(txs, anchor);
    case Monthly => MonthlyViewTotals(txs, anchor);
    case Yearly => YearlyViewTotals(txs, anchor);
  }

  lemma WeeklyViewTotals(txs: seq<Transaction>, anchor: string)
    requires WeeklyAnchor(anchor)
    ensures var v := View(txs, Weekly, anchor);
      Totals(v.totalIncome, v.totalExpense) == SumCounted(txs, Weekly, anchor)
  {
    var dates := TargetDates(anchor);
    TargetDatesDistinct(anchor);
    RowsTotalIsSumIn(txs, DateOf, dates, dates);
    WeeklyTotals(txs, anchor);
  }

  lemma MonthlyViewTotals(txs: seq<Transaction>, anchor: string)
    requires IsDateShape(anchor)
    ensures var v := View(txs, Monthly, anchor);
      Totals(v.totalIncome, v.totalExpense) == SumCounted(txs, Monthly, anchor)
  {
    var p := MonthPrefix(anchor);
    var rows := KeyedRows(WithPrefix(txs, p), WeekOf, WeekKeys, WeekNames);
    assert View(txs, Monthly, anchor) == Bucketed(rows);
    WeekKeysDistinct();
    RowsTotalIsSumIn(WithPrefix(txs, p), WeekOf, WeekKeys, WeekNames);
    PrefixedTotals(txs, p, WeekOf, WeekKeys);
    MonthlyCounted(txs, anchor);
    assert RowsTotal(rows) == SumPrefixed(txs, p, WeekOf, WeekKeys);
  }

  lemma YearlyViewTotals(txs: seq<Transaction>, anchor: string)
    requires IsDateShape(anchor)
    ensures var v := View(txs, Yearly, anchor);
      Totals(v.totalIncome, v.totalExpense) == SumCounted(txs, Yearly, anchor)
  {
    var p := YearPrefix(anchor);
    var rows := KeyedRows(WithPrefix(txs, p), MonthOf, MonthKeys, MonthNames);
    assert View(txs, Yearly, anchor) == Bucketed(rows);
    MonthKeysDistinct();
    RowsTotalIsSumIn(WithPrefix(txs, p), MonthOf, MonthKeys, MonthNames);
    PrefixedTotals(txs, p, MonthOf, MonthKeys);
    YearlyCounted(txs, anchor);
    assert RowsTotal(rows) == SumPrefixed(txs, p, MonthOf, MonthKeys);
  }

  lemma WeekKeysDistinct()
    ensures Distinct(WeekKeys)
  {
    forall i, j | 0 <= i < j < 4 ensures WeekKeys[i] != WeekKeys[j] {
      WeekKey(i + 1);
      WeekKey(j + 1);
    }
  }

  lemma MonthKeysDistinct()
    ensures Distinct(MonthKeys)
  {
    forall i, j | 0 <= i < j < 12 ensures MonthKeys[i] != MonthKeys[j] {
      MonthKey(i + 1);
      MonthKey(j + 1);
    }
  }

  /** One more transaction moves the totals by its contribution when it is counted, and not at all otherwise. */
  lemma AppendingATransaction(txs: seq<Transaction>, t: Transaction, period: Period, anchor: string)
    requires AnchorFits(period, anchor)
    ensures var before, after := View(txs, period, anchor), View(txs + [t], period, anchor);
      Totals(after.totalIncome, after.totalExpense)
        == Totals(before.totalIncome, before.totalExpense).Plus(if Counted(period, anchor, t) then Contribution(t) else Zero)
  {
    TotalsCountEachTransactionOnce(txs, period, anchor);
    TotalsCountEachTransactionOnce(txs + [t], period, anchor);
    assert (txs + [t])[..|txs|] == txs;
  }

  /** A counted transaction whose type is not exactly "income" raises the expense total only, in every period. */
  lemma NonIncomeIsExpense(txs: seq<Transaction>, t: Transaction, period: Period, anchor: string)
    requires AnchorFits(period, anchor) && Counted(period, anchor, t) && t.kind != "income"
    ensures var before, after := View(txs, period, anchor), View(txs + [t], period, anchor);
      after.totalIncome == before.totalIncome && after.totalExpense == before.totalExpense + t.amount
  {
    AppendingATransaction(txs, t, period, anchor);
  }

  /** Rows, row labels, revenue and balance, period by period. */
  lemma ViewShape(txs: seq<Transaction>, period: Period, anchor: string)
    requires AnchorFits(period, anchor)
    ensures var v := View(txs, period, anchor);
      && v.balance == v.totalIncome - v.totalExpense
      && (v.table.Entries? <==> period == Daily)
      && (v.table.Buckets? ==> forall r :: r in v.table.rows ==> r.revenue == r.income - r.expense)
      && (period == Weekly ==>
            v.table.Buckets? && |v.table.rows| == 7 && forall i :: 0 <= i < 7 ==> v.table.rows[i].name == TargetDates(anchor)[i])
      && (period == Monthly ==>
            v.table.Buckets? && |v.table.rows| == 4 && forall i :: 0 <= i < 4 ==> v.table.rows[i].name == WeekNames[i])
      && (period == Yearly ==>
            v.table.Buckets? && |v.table.rows| == 12 && forall i :: 0 <= i < 12 ==> v.table.rows[i].name == MonthNames[i])
  {
    match period
    case Daily =>
    case Weekly =>
      var dates := TargetDates(anchor);
      KeyedRowsShape(txs, DateOf, dates, dates);
    case Monthly =>
      KeyedRowsShape(WithPrefix(txs, MonthPrefix(anchor)), WeekOf, WeekKeys, WeekNames);
    case Yearly =>
      KeyedRowsShape(WithPrefix(txs, YearPrefix(anchor)), MonthOf, MonthKeys, MonthNames);
  }

  // ---------------------------------------------------------------------------
  // Daily

  /** A transaction is listed, and counted, exactly when its date text is the selected text. */
  lemma DailyMatchesExactly(txs: seq<Transaction>, day: string, t: Transaction)
    ensures t in View(txs, Daily, day).table.entries <==> t in txs && t.date == day
    ensures Counted(Daily, day, t) <==> t.date == day
  {
  }

  lemma PreviousDayNotShown(t: Transaction)
    requires t.date == "2025-11-20"
    ensures !Counted(Daily, "2025-11-21", t)
  {
    assert t.date[9] != "2025-11-21"[9];
  }

  // ---------------------------------------------------------------------------
  // Weekly

  /** The i-th target text reads back as the anchor moved back exactly i days. */
  lemma TargetDateStepsBack(anchor: string, i: nat)
    requires WeeklyAnchor(anchor) && i < 7
    ensures IsDateShape(TargetDates(anchor)[i])
    ensures Valid(Fields(TargetDates(anchor)[i]))
    ensures DayNumber(Fields(TargetDates(anchor)[i])) == DayNumber(AnchorDate(anchor)) - i
  {
    var d := DaysBack(AnchorDate(anchor), i);
    assert TargetDates(anchor)[i] == Format(d);
    FieldsFormat(d);
  }

  lemma TargetDatesDistinct(anchor: string)
    requires WeeklyAnchor(anchor)
    ensures Distinct(TargetDates(anchor))
  {
    var dates := TargetDates(anchor);
    forall i, j | 0 <= i < j < 7 ensures dates[i] != dates[j] {
      TargetDateStepsBack(anchor, i);
      TargetDateStepsBack(anchor, j);
    }
  }

  /** A later target text is a strictly earlier date. */
  lemma TargetDatesDescend(anchor: string, i: nat, j: nat)
    requires WeeklyAnchor(anchor) && i < j < 7
    ensures IsDateShape(TargetDates(anchor)[i]) && IsDateShape(TargetDates(anchor)[j])
    ensures Before(Fields(TargetDates(anchor)[j]), Fields(TargetDates(anchor)[i]))
  {
    var a := AnchorDate(anchor);
    var di, dj := DaysBack(a, i), DaysBack(a, j);
    assert TargetDates(anchor)[i] == Format(di) && TargetDates(anchor)[j] == Format(dj);
    FieldsFormat(di);
    FieldsFormat(dj);
    DaysBackDescending(a, i, j);
  }

  /** With a year of 100 or later, the first target text is the anchor itself. */
  lemma FirstTargetIsAnchor(anchor: string)
    requires WeeklyAnchor(anchor) && 100 <= Fields(anchor).year
    ensures TargetDates(anchor)[0] == anchor
  {
    FormatFields(anchor);
  }

  /** A year from 0000 to 0099 is read by the Date constructor as 1900 to 1999. */
  lemma TwoDigitYearAnchor(anchor: string)
    requires WeeklyAnchor(anchor) && Fields(anchor).year < 100
    ensures IsDateShape(TargetDates(anchor)[0])
    ensures Fields(TargetDates(anchor)[0]) == Date(1900 + Fields(anchor).year, Fields(anchor).month, Fields(anchor).day)
  {
    var a := AnchorDate(anchor);
    assert TargetDates(anchor)[0] == Format(a);
    FieldsFormat(a);
  }

  /** A transaction is counted in the week exactly when its date text is one of the seven. */
  lemma WeeklyCountedIff(anchor: string, t: Transaction)
    requires WeeklyAnchor(anchor)
    ensures Counted(Weekly, anchor, t) <==> exists i :: 0 <= i < 7 && t.date == TargetDates(anchor)[i]
  {
  }

  // ---------------------------------------------------------------------------
  // Monthly and yearly

  /** On a `YYYY-MM-DD` date text the day and month fields parse to their numbers. */
  lemma FieldsOfDateText(t: Transaction)
    requires IsDateShape(t.date)
    ensures WeekOf(t) == Some(WeekNumber(Fields(t.date).day))
    ensures MonthOf(t) == Some(Fields(t.date).month)
  {
    SplitDate(t.date);
    ParseIntOfDigits(t.date[8..]);
    ParseIntOfDigits(t.date[5..7]);
  }

  /** Days 1-7, 8-14, 15-21 and 22 on fall in buckets 1 to 4; a day below 1 in none. */
  lemma WeekBuckets(day: int)
    ensures 1 <= day <= 7 <==> WeekNumber(day) == 1
    ensures 8 <= day <= 14 <==> WeekNumber(day) == 2
    ensures 15 <= day <= 21 <==> WeekNumber(day) == 3
    ensures 22 <= day <==> WeekNumber(day) == 4
    ensures day < 1 <==> Some(WeekNumber(day)) !in WeekKeys
  {
  }

  /** Counted in the month: the prefix matches and the day field parses to 1 or more. */
  lemma MonthlyCountedIff(anchor: string, t: Transaction)
    requires IsDateShape(anchor)
    ensures var day := ParseInt(SplitField(t.date, '-', 2));
      Counted(Monthly, anchor, t) <==> StartsWith(t.date, MonthPrefix(anchor)) && day.Some? && 1 <= day.value
  {
    var day := ParseInt(SplitField(t.date, '-', 2));
    if day.Some? {
      WeekBuckets(day.value);
    }
  }

  /** Counted in the year: the prefix matches and the month field parses to 1 through 12. */
  lemma YearlyCountedIff(anchor: string, t: Transaction)
    requires IsDateShape(anchor)
    ensures Counted(Yearly, anchor, t)
      <==> StartsWith(t.date, YearPrefix(anchor)) && MonthOf(t).Some? && 1 <= MonthOf(t).value <= 12
  {
    MonthKeysAreTheMonths(MonthOf(t));
  }

  lemma MonthKeysAreTheMonths(k: Option<int>)
    ensures k in MonthKeys <==> k.Some? && 1 <= k.value <= 12
  {
    if k.Some? && 1 <= k.value <= 12 {
      assert MonthKeys[k.value - 1] == k;
    }
  }

  /** A numeral of four digits without a leading zero is its own `String(Number(...))`. */
  lemma FourDigitNumeral(ds: string)
    requires |ds| == 4 && AllDecimalDigits(ds) && 1000 <= DecimalValue(ds)
    ensures DecimalString(DecimalValue(ds)) == ds
  {
    var n := DecimalValue(ds);
    DecimalValueBound(ds);
    assert Pow10(4) == 10000;
    DigitsRoundTrip(ds);
    DecimalStringLength(n);
    assert |DecimalString(n)| == 4;
    assert ZeroPadded(n, 4) == PadStart(DecimalString(n), 4, '0') == DecimalString(n);
  }

  /** For years 1000 on the prefixes are the anchor's own first four and seven characters. */
  lemma FourDigitYearPrefixes(anchor: string)
    requires IsDateShape(anchor) && 1000 <= Fields(anchor).year
    ensures YearPrefix(anchor) == anchor[..4]
    ensures MonthPrefix(anchor) == anchor[..7]
  {
    var year, month := anchor[..4], anchor[5..7];
    FourDigitNumeral(year);
    DigitsRoundTrip(month);
    assert anchor[..7] == year + "-" + month;
  }

  /** `String(Number("0999"))` is "999": the year prefix loses its leading zero. */
  lemma LeadingZeroYearPrefix()
    ensures IsDateShape("0999-05-01") && YearPrefix("0999-05-01") == "999" && MonthPrefix("0999-05-01") == "999-05"
  {
    var a := "0999-05-01";
    FourDigitValue(a[..4]);
    TwoDigitValue(a[5..7]);
    TwoDigitValue(a[8..]);
    assert Fields(a) == Date(999, 5, 1);
    assert DecimalString(999) == DecimalString(99) + ['9'];
    assert DecimalString(99) == DecimalString(9) + ['9'];
    assert ZeroPadded(5, 2) == "05";
  }

  lemma WeekKey(w: nat)
    requires 1 <= w <= 4
    ensures WeekKeys[w - 1] == Some(w)
  {
    if w == 1 {} else if w == 2 {} else if w == 3 {} else {}
  }

  lemma MonthKey(m: nat)
    requires 1 <= m <= 12
    ensures MonthKeys[m - 1] == Some(m)
  {
    MonthKeysAreTheMonths(Some(m));
  }

  /** Row `i` of a prefixed list gains a new transaction exactly when it carries the prefix and has key `ks[i]`. */
  lemma PrefixedRowGains<K>(txs: seq<Transaction>, t: Transaction, p: string, key: Transaction -> K, ks: seq<K>, names: seq<string>, i: nat)
    requires |names| == |ks| && i < |ks|
    ensures var before, after := KeyedRows(WithPrefix(txs, p), key, ks, names)[i], KeyedRows(WithPrefix(txs + [t], p), key, ks, names)[i];
      after == RowOf(before.name, Totals(before.income, before.expense).Plus(
        if StartsWith(t.date, p) && key(t) == ks[i] then Contribution(t) else Zero))
  {
    var data := WithPrefix(txs, p);
    assert (txs + [t])[..|txs|] == txs;
    if StartsWith(t.date, p) {
      assert WithPrefix(txs + [t], p) == data + [t];
      KeyedRowGains(data, t, key, ks, names, i);
    } else {
      assert WithPrefix(txs + [t], p) == data;
    }
  }

  /** Monthly row `w` gains a new transaction exactly when it carries the prefix and its bucket is `w`. */
  lemma MonthlyRowGains(txs: seq<Transaction>, t: Transaction, anchor: string, w: nat)
    requires IsDateShape(anchor) && 1 <= w <= 4
    ensures var before, after := View(txs, Monthly, anchor).table.rows[w - 1], View(txs + [t], Monthly, anchor).table.rows[w - 1];
      after == RowOf(before.name, Totals(before.income, before.expense).Plus(
        if StartsWith(t.date, MonthPrefix(anchor)) && WeekOf(t) == Some(w) then Contribution(t) else Zero))
  {
    var p := MonthPrefix(anchor);
    assert View(txs, Monthly, anchor).table.rows == KeyedRows(WithPrefix(txs, p), WeekOf, WeekKeys, WeekNames);
    assert View(txs + [t], Monthly, anchor).table.rows == KeyedRows(WithPrefix(txs + [t], p), WeekOf, WeekKeys, WeekNames);
    var i := w - 1;
    WeekKey(w);
    var before, after := KeyedRows(WithPrefix(txs, p), WeekOf, WeekKeys, WeekNames)[i], KeyedRows(WithPrefix(txs + [t], p), WeekOf, WeekKeys, WeekNames)[i];
    PrefixedRowGains(txs, t, p, WeekOf, WeekKeys, WeekNames, i);
    assert after == RowOf(before.name, Totals(before.income, before.expense).Plus(
      if StartsWith(t.date, p) && WeekOf(t) == Some(w) then Contribution(t) else Zero));
  }

  /** Yearly row `m` gains a new transaction exactly when it carries the year prefix and its month field parses to `m`. */
  lemma YearlyRowGains(txs: seq<Transaction>, t: Transaction, anchor: string, m: nat)
    requires IsDateShape(anchor) && 1 <= m <= 12
    ensures var before, after := View(txs, Yearly, anchor).table.rows[m - 1], View(txs + [t], Yearly, anchor).table.rows[m - 1];
      after == RowOf(before.name, Totals(before.income, before.expense).Plus(
        if StartsWith(t.date, YearPrefix(anchor)) && MonthOf(t) == Some(m) then Contribution(t) else Zero))
  {
    var p := YearPrefix(anchor);
    assert View(txs, Yearly, anchor).table.rows == KeyedRows(WithPrefix(txs, p), MonthOf, MonthKeys, MonthNames);
    assert View(txs + [t], Yearly, anchor).table.rows == KeyedRows(WithPrefix(txs + [t], p), MonthOf, MonthKeys, MonthNames);
    var i := m - 1;
    MonthKey(m);
    var before, after := KeyedRows(WithPrefix(txs, p), MonthOf, MonthKeys, MonthNames)[i], KeyedRows(WithPrefix(txs + [t], p), MonthOf, MonthKeys, MonthNames)[i];
    PrefixedRowGains(txs, t, p, MonthOf, MonthKeys, MonthNames, i);
    assert after == RowOf(before.name, Totals(before.income, before.expense).Plus(
      if StartsWith(t.date, p) && MonthOf(t) == Some(m) then Contribution(t) else Zero));
  }

  /** Weekly row `i` gains a new transaction exactly when its date text is the i-th target. */
  lemma WeeklyRowGains(txs: seq<Transaction>, t: Transaction, anchor: string, i: nat)
    requires WeeklyAnchor(anchor) && i < 7
    ensures var before, after := View(txs, Weekly, anchor).table.rows[i], View(txs + [t], Weekly, anchor).table.rows[i];
      after == RowOf(before.name, Totals(before.income, before.expense).Plus(
        if t.date == TargetDates(anchor)[i] then Contribution(t) else Zero))
  {
    var dates := TargetDates(anchor);
    KeyedRowGains(txs, t, DateOf, dates, dates, i);
  }

  // ---------------------------------------------------------------------------
  // Worked examples

  lemma TargetIs(anchor: string, i: nat, d: Date, text: string)
    requires WeeklyAnchor(anchor) && i < 7 && DaysBack(AnchorDate(anchor), i) == d
    requires IsFullDate(text) && Fields(text) == d
    ensures TargetDates(anchor)[i] == text
  {
    assert TargetDates(anchor)[i] == Format(d);
    FormatsAs(d, text);
  }

  /** Stepping back from 2025-03-02 crosses into a 28-day February. */
  lemma StepsBackFromSecondMarch2025(i: nat)
    requires i < 7
    ensures DaysBack(Date(2025, 3, 2), i) == if i < 2 then Date(2025, 3, 2 - i) else Date(2025, 2, 30 - i)
  {
    DayNumberLowerBound(Date(2025, 3, 2));
    assert !IsLeapYear(2025);
    if i > 0 {
      StepsBackFromSecondMarch2025(i - 1);
    }
  }

  lemma TargetOfSecondMarch2025(anchor: string, i: nat, text: string)
    requires anchor == "2025-03-02" && i < 7 && IsDateShape(text)
    requires Fields(text) == if i < 2 then Date(2025, 3, 2 - i) else Date(2025, 2, 30 - i)
    ensures WeeklyAnchor(anchor) && TargetDates(anchor)[i] == text
  {
    assert Fields(anchor) == Date(2025, 3, 2) by { ReadDate(anchor); }
    StepsBackFromSecondMarch2025(i);
    TargetIs(anchor, i, DaysBack(Date(2025, 3, 2), i), text);
  }

  const SecondMarchWeek: seq<string> :=
    ["2025-03-02", "2025-03-01", "2025-02-28", "2025-02-27", "2025-02-26", "2025-02-25", "2025-02-24"]

  lemma SecondMarchWeekText(i: nat)
    requires i < 7
    ensures IsDateShape(SecondMarchWeek[i])
    ensures Fields(SecondMarchWeek[i]) == if i < 2 then Date(2025, 3, 2 - i) else Date(2025, 2, 30 - i)
  {
    var s := SecondMarchWeek[i];
    DateShapeByChars(s);
    ReadDate(s);
  }

  /** From 2025-03-02 the week steps back over the end of a non-leap February. */
  lemma WeekOfSecondMarch2025(anchor: string)
    requires anchor == "2025-03-02"
    ensures WeeklyAnchor(anchor) && TargetDates(anchor) == SecondMarchWeek
  {
    assert WeeklyAnchor(anchor) by { ReadDate(anchor); }
    forall i | 0 <= i < 7 ensures TargetDates(anchor)[i] == SecondMarchWeek[i] {
      SecondMarchWeekText(i);
      TargetOfSecondMarch2025(anchor, i, SecondMarchWeek[i]);
    }
  }

  lemma NovemberPrefix(anchor: string)
    requires anchor == "2025-11-15"
    ensures IsDateShape(anchor) && MonthPrefix(anchor) == "2025-11"
  {
    assert Fields(anchor).year == 2025 by { ReadDate(anchor); }
    FourDigitYearPrefixes(anchor);
  }

  lemma DayField(t: Transaction, day: nat)
    requires IsDateShape(t.date) && 10 * CharValue(t.date[8]) + CharValue(t.date[9]) == day
    ensures WeekOf(t) == Some(WeekNumber(day))
  {
    var field := t.date[8..];
    TwoDigitValue(field);
    assert field[0] == t.date[8] && field[1] == t.date[9];
    assert Fields(t.date).day == day;
    FieldsOfDateText(t);
  }

  /** With anchor 2025-11-15, a November date text is counted in the bucket of its day. */
  lemma NovemberDay(anchor: string, t: Transaction, day: nat)
    requires anchor == "2025-11-15" && IsDateShape(t.date) && t.date[..7] == "2025-11"
    requires 10 * CharValue(t.date[8]) + CharValue(t.date[9]) == day && 1 <= day
    ensures IsDateShape(anchor) && Counted(Monthly, anchor, t) && WeekOf(t) == Some(WeekNumber(day))
  {
    NovemberPrefix(anchor);
    DayField(t, day);
    var w := WeekNumber(day);
    assert 1 <= w <= 4;
    WeekKey(w);
  }

  /** With anchor 2025-11-15, a transaction dated 2025-11-15 falls in week 3. */
  lemma FifteenthInWeekThree(anchor: string, t: Transaction)
    requires anchor == "2025-11-15" && t.date == "2025-11-15"
    ensures IsDateShape(anchor) && Counted(Monthly, anchor, t) && WeekOf(t) == Some(3)
  {
    assert IsDateShape(t.date) && t.date[..7] == "2025-11";
    assert 10 * CharValue(t.date[8]) + CharValue(t.date[9]) == 15;
    NovemberDay(anchor, t, 15);
    assert WeekNumber(15) == 3;
  }

  /** With anchor 2025-11-15, a transaction dated 2025-11-29 falls in week 4. */
  lemma TwentyNinthInWeekFour(anchor: string, t: Transaction)
    requires anchor == "2025-11-15" && t.date == "2025-11-29"
    ensures IsDateShape(anchor) && Counted(Monthly, anchor, t) && WeekOf(t) == Some(4)
  {
    assert IsDateShape(t.date) && t.date[..7] == "2025-11";
    assert 10 * CharValue(t.date[8]) + CharValue(t.date[9]) == 29;
    NovemberDay(anchor, t, 29);
    assert WeekNumber(29) == 4;
  }

  /** With anchor 2025-01-01, a transaction dated 2025-12-31 changes the December row and no other. */
  lemma NewYearsEveInDecember(txs: seq<Transaction>, t: Transaction, anchor: string, m: nat)
    requires anchor == "2025-01-01" && t.date == "2025-12-31" && 1 <= m <= 12
    ensures IsDateShape(anchor)
    ensures var before, after := View(txs, Yearly, anchor).table.rows[m - 1], View(txs + [t], Yearly, anchor).table.rows[m - 1];
      after == RowOf(before.name, Totals(before.income, before.expense).Plus(if m == 12 then Contribution(t) else Zero))
  {
    DecemberOf2025(anchor, t);
    YearlyRowGains(txs, t, anchor, m);
  }

  lemma DecemberOf2025(anchor: string, t: Transaction)
    requires anchor == "2025-01-01" && t.date == "2025-12-31"
    ensures IsDateShape(anchor) && StartsWith(t.date, YearPrefix(anchor)) && MonthOf(t) == Some(12)
  {
    YearOf2025(anchor);
    DecemberText(t.date);
    FieldsOfDateText(t);
    assert t.date[..4] == "2025";
  }

  lemma YearOf2025(anchor: string)
    requires anchor == "2025-01-01"
    ensures IsDateShape(anchor) && YearPrefix(anchor) == "2025"
  {
    DateShapeByChars(anchor);
    assert Fields(anchor).year == 2025 by { ReadDate(anchor); }
    FourDigitYearPrefixes(anchor);
  }

  lemma DecemberText(s: string)
    requires s == "2025-12-31"
    ensures IsDateShape(s) && Fields(s).month == 12
  {
    DateShapeByChars(s);
    ReadDate(s);
  }

  // ---------------------------------------------------------------------------
  // renderDashboard, step by step

  /** The `for (i = 0; i < 7; i++)` loop pushing one date text per step. */
  method WeeklyTargets(anchor: string) returns (targetDates: seq<string>)
    requires WeeklyAnchor(anchor)
    ensures targetDates == TargetDates(anchor)
  {
    targetDates := [];
    for i := 0 to 7
      invariant targetDates == TargetDates(anchor)[..i]
    {
      targetDates := targetDates + [TargetDate(anchor, i)];
    }
  }

  /** `renderDashboard` with the HTML left out: the table it fills and the three figures it shows. */
  method RenderDashboard(txs: seq<Transaction>, period: Period, anchor: string) returns (view: Dashboard)
    requires AnchorFits(period, anchor)
    ensures view == View(txs, period, anchor)
  {
    match period
    case Daily =>
      var filtered := OnDate(txs, anchor);
      var totalInc, totalExp := AccumulateAll(filtered);
      view := Shown(Entries(filtered), Totals(totalInc, totalExp));
    case Weekly =>
      var targetDates := WeeklyTargets(anchor);
      var rows, totalInc, totalExp := Tabulate(txs, DateOf, targetDates, targetDates);
      view := Shown(Buckets(rows), Totals(totalInc, totalExp));
    case Monthly =>
      var monthData := WithPrefix(txs, MonthPrefix(anchor));
      var rows, totalInc, totalExp := Tabulate(monthData, WeekOf, WeekKeys, WeekNames);
      view := Shown(Buckets(rows), Totals(totalInc, totalExp));
    case Yearly =>
      var yearData := WithPrefix(txs, YearPrefix(anchor));
      var rows, totalInc, totalExp := Tabulate(yearData, MonthOf, MonthKeys, MonthNames);
      view := Shown(Buckets(rows), Totals(totalInc, totalExp));
  }

  /** The page's loaded transactions, replaced by every `fetchData`. */
  class Page {
    var transactions: seq<Transaction>

    constructor ()
      ensures transactions == []
    {
      transactions := [];
    }

    /** `fetchData`: the fetched rows replace the list, and the dashboard is drawn from them. */
    method FetchData(rows: seq<Transaction>, period: Period, anchor: string) returns (view: Dashboard)
      requires AnchorFits(period, anchor)
      modifies this
      ensures transactions == rows
      ensures view == View(rows, period, anchor)
    {
      transactions := rows;
      view := RenderDashboard(transactions, period, anchor);
    }

    /** Drawing again from the loaded list, for instance after the filter changes. */
    method Redraw(period: Period, anchor: string) returns (view: Dashboard)
      requires AnchorFits(period, anchor)
      ensures view == View(transactions, period, anchor)
    {
      view := RenderDashboard(transactions, period, anchor);
    }
  }

  // ---------------------------------------------------------------------------
  // processPayment

  /**
   * The guard in `processPayment`: a blank field is refused, and so is text whose
   * `Number(...)` value is zero or negative; anything else, text that is not a
   * number included, is posted as typed. `asNumber` is `Number(raw)`.
   */
  function CheckPayment(raw: string, asNumber: JsNumber): (r: PaymentEntry)
    ensures r.Refused? <==> raw == "" || (asNumber.Num? && asNumber.value <= 0)
    ensures r.Posted? ==> r.paymentAmount == raw
  {
    if raw == "" || (asNumber.Num? && asNumber.value <= 0) then Refused else Posted(raw)
  }

  /** What gets through is a positive number or not a number at all. */
  lemma PostedPaymentIsPositiveOrNaN(raw: string, asNumber: JsNumber)
    requires CheckPayment(raw, asNumber).Posted?
    ensures raw != "" && (asNumber.NaN? || asNumber.value > 0)
  {
  }

  /** `NaN <= 0` is false, so text such as "abc" is sent to the server. */
  lemma NonNumericTextIsPosted()
    ensures CheckPayment("abc", NaN) == Posted("abc")
  {
  }
}

=== FILE: jstext.dfy ===
/**
 * The few JavaScript string and number built-ins the dashboard code leans on:
 * `String.prototype.split` with a one-character separator, `parseInt` without a
 * radix, `String(n)` of a non-negative integer, `padStart` and `startsWith`.
 */
module JsText {
  import opened Wrappers
  import opened Seqs

  /** A JavaScript number as far as the model needs one: `NaN`, or an integral amount in cents. */
  datatype JsNumber = NaN | Num(value: int)

  predicate IsDecimalDigit(c: char) { '0' <= c <= '9' }

  predicate AllDecimalDigits(s: string) {
    forall i :: 0 <= i < |s| ==> IsDecimalDigit(s[i])
  }

  function DigitChar(d: nat): (c: char)
    requires d < 10
    ensures IsDecimalDigit(c)
  {
    "0123456789"[d]
  }

  /** Value of one digit character in radix 10 or 16 (`parseInt` knows no other radix without an argument). */
  predicate IsDigitIn(c: char, radix: nat) {
    || ('0' <= c <= '9')
    || (radix == 16 && (('a' <= c <= 'f') || ('A' <= c <= 'F')))
  }

  function CharValue(c: char): nat {
    if '0' <= c <= '9' then (c as int) - ('0' as int)
    else if 'a' <= c <= 'f' then (c as int) - ('a' as int) + 10
    else if 'A' <= c <= 'F' then (c as int) - ('A' as int) + 10
    else 0
  }

  lemma DigitCharValue(d: nat)
    requires d < 10
    ensures CharValue(DigitChar(d)) == d
  {
  }

  /** The number a string of digits denotes in the given radix (most significant digit first). */
  function DigitsValue(ds: string, radix: nat): nat {
    if ds == [] then 0
    else DigitsValue(ds[..|ds| - 1], radix) * radix + CharValue(ds[|ds| - 1])
  }

  /** `Number(ds)` for a non-empty string of decimal digits. */
  function DecimalValue(ds: string): nat {
    DigitsValue(ds, 10)
  }

  lemma TwoDigitValue(ds: string)
    requires |ds| == 2
    ensures DecimalValue(ds) == 10 * CharValue(ds[0]) + CharValue(ds[1])
  {
    var front := ds[..1];
    assert DecimalValue(ds) == DigitsValue(front, 10) * 10 + CharValue(ds[1]);
    assert front[..0] == [];
    assert DigitsValue(front, 10) == DigitsValue(front[..0], 10) * 10 + CharValue(ds[0]);
  }

  lemma FourDigitValue(ds: string)
    requires |ds| == 4
    ensures DecimalValue(ds) == 1000 * CharValue(ds[0]) + 100 * CharValue(ds[1]) + 10 * CharValue(ds[2]) + CharValue(ds[3])
  {
    var three, two := ds[..3], ds[..2];
    assert DecimalValue(ds) == DigitsValue(three, 10) * 10 + CharValue(ds[3]);
    assert three[..2] == two;
    assert DigitsValue(three, 10) == DigitsValue(two, 10) * 10 + CharValue(ds[2]);
    TwoDigitValue(two);
  }

  // ---------------------------------------------------------------------------
  // String(n) for a non-negative integer

  /** `String(n)`: shortest decimal numeral of `n`, no leading zeros. */
  function DecimalString(n: nat): (r: string)
    ensures 1 <= |r| && AllDecimalDigits(r)
    ensures r[0] == '0' ==> n == 0
  {
    if n < 10 then [DigitChar(n)]
    else DecimalString(n / 10) + [DigitChar(n % 10)]
  }

  lemma {:induction false} DecimalStringRoundTrip(n: nat)
    ensures DecimalValue(DecimalString(n)) == n
  {
    var r := DecimalString(n);
    if n < 10 {
      DigitCharValue(n);
      assert r[..0] == [];
      assert DecimalValue(r) == DigitsValue(r[..0], 10) * 10 + CharValue(r[0]);
    } else {
      DigitCharValue(n % 10);
      DecimalStringRoundTrip(n / 10);
      assert r[..|r| - 1] == DecimalString(n / 10);
    }
  }

  lemma DecimalStringLength(n: nat)
    ensures n < 10 ==> |DecimalString(n)| == 1
    ensures 10 <= n < 100 ==> |DecimalString(n)| == 2
    ensures 100 <= n < 1000 ==> |DecimalString(n)| == 3
    ensures 1000 <= n < 10000 ==> |DecimalString(n)| == 4
  {
  }

  function Pow10(k: nat): (p: nat)
    ensures 1 <= p
  {
    if k == 0 then 1 else 10 * Pow10(k - 1)
  }

  lemma {:induction false} DecimalValueBound(ds: string)
    requires AllDecimalDigits(ds)
    ensures DecimalValue(ds) < Pow10(|ds|)
    decreases |ds|
  {
    if ds != [] {
      var front := ds[..|ds| - 1];
      DecimalValueBound(front);
      var v, p := DecimalValue(front), Pow10(|front|);
      assert v + 1 <= p;
      assert (v + 1) * 10 <= p * 10;
    }
  }

  function Zeros(k: nat): (r: string)
    ensures |r| == k
  {
    seq(k, _ => '0')
  }

  lemma ZerosAreZeros(k: nat)
    ensures forall i :: 0 <= i < k ==> Zeros(k)[i] == '0'
  {
  }

  lemma {:induction false} LeadingZerosIgnored(k: nat, ds: string)
    ensures DecimalValue(Zeros(k) + ds) == DecimalValue(ds)
    decreases |ds|
  {
    if ds == [] {
      ZerosAreZeros(k);
      AllZerosValue(Zeros(k));
      assert Zeros(k) + ds == Zeros(k);
    } else {
      var front := ds[..|ds| - 1];
      LeadingZerosIgnored(k, front);
      assert (Zeros(k) + ds)[..|Zeros(k) + ds| - 1] == Zeros(k) + front;
    }
  }

  lemma {:induction false} AllZerosValue(z: string)
    requires forall i :: 0 <= i < |z| ==> z[i] == '0'
    ensures DecimalValue(z) == 0
    decreases |z|
  {
    if z != [] {
      AllZerosValue(z[..|z| - 1]);
    }
  }

  lemma {:induction false} ZeroValueIsAllZeros(ds: string)
    requires AllDecimalDigits(ds) && DecimalValue(ds) == 0
    ensures ds == Zeros(|ds|)
    decreases |ds|
  {
    if ds != [] {
      var front := ds[..|ds| - 1];
      ZeroValueIsAllZeros(front);
      assert ds == front + [ds[|ds| - 1]];
    }
  }

  /** `ds` is the numeral of its value behind leading zeros. */
  predicate PaddedNumeral(ds: string) {
    var n := DecimalString(DecimalValue(ds));
    |n| <= |ds| && ds == Zeros(|ds| - |n|) + n
  }

  /** Every digit string is its own value's numeral behind some leading zeros. */
  lemma {:induction false} DigitsAreCanonicalPadded(ds: string)
    requires 1 <= |ds| && AllDecimalDigits(ds)
    ensures |DecimalString(DecimalValue(ds))| <= |ds|
    ensures ds == Zeros(|ds| - |DecimalString(DecimalValue(ds))|) + DecimalString(DecimalValue(ds))
    decreases |ds|
  {
    var front, c := ds[..|ds| - 1], ds[|ds| - 1];
    DigitsFront(ds);
    if front != [] {
      DigitsAreCanonicalPadded(front);
    }
    PaddedStep(front, c);
    SplitLast(ds);
  }

  lemma PaddedStep(front: string, c: char)
    requires AllDecimalDigits(front) && IsDecimalDigit(c)
    requires front != [] ==> PaddedNumeral(front)
    ensures PaddedNumeral(front + [c])
  {
    var v := DecimalValue(front);
    assert (front + [c])[..|front|] == front;
    assert DecimalValue(front + [c]) == v * 10 + CharValue(c);
    var n := if v == 0 then [] else DecimalString(v);
    if v == 0 {
      assert front == Zeros(|front|) + [] by {
        if front != [] { ZeroValueIsAllZeros(front); }
      }
    }
    AppendDigit(v, c);
    PaddedSnoc(front, n, c);
  }

  lemma DigitsFront(ds: string)
    requires ds != [] && AllDecimalDigits(ds)
    ensures AllDecimalDigits(ds[..|ds| - 1]) && IsDecimalDigit(ds[|ds| - 1])
  {
  }

  lemma PaddedSnoc(front: string, n: string, c: char)
    requires |n| <= |front| && front == Zeros(|front| - |n|) + n
    ensures |n + [c]| <= |front + [c]| && front + [c] == Zeros(|front + [c]| - |n + [c]|) + (n + [c])
  {
    var k := |front| - |n|;
    assert |front + [c]| - |n + [c]| == k;
    AppendAssoc(Zeros(k), n, [c]);
  }

  /** Writing one more digit after a numeral: the value gains the digit, the numeral the character. */
  lemma AppendDigit(v: nat, c: char)
    requires IsDecimalDigit(c)
    ensures v == 0 ==> DecimalString(v * 10 + CharValue(c)) == [c]
    ensures v > 0 ==> DecimalString(v * 10 + CharValue(c)) == DecimalString(v) + [c]
  {
    var d := CharValue(c);
    assert d < 10 && DigitChar(d) == c;
    assert (v * 10 + d) / 10 == v && (v * 10 + d) % 10 == d;
  }

  // ---------------------------------------------------------------------------
  // padStart and startsWith

  /** `s.padStart(width, c)` with a one-character fill. */
  function PadStart(s: string, width: nat, c: char): (r: string)
    ensures |r| == if |s| >= width then |s| else width
    ensures r[|r| - |s|..] == s
    ensures forall i :: 0 <= i < |r| - |s| ==> r[i] == c
  {
    if |s| >= width then s else seq(width - |s|, _ => c) + s
  }

  /** `String(n).padStart(width, '0')`: the numeral of `n` with at least `width` digits. */
  function ZeroPadded(n: nat, width: nat): (r: string)
    ensures AllDecimalDigits(r)
  {
    PadStart(DecimalString(n), width, '0')
  }

  lemma ZeroPaddedIsZerosThenNumeral(n: nat, width: nat)
    ensures ZeroPadded(n, width) == Zeros(|ZeroPadded(n, width)| - |DecimalString(n)|) + DecimalString(n)
  {
    var r := ZeroPadded(n, width);
    var k := |r| - |DecimalString(n)|;
    assert r == r[..k] + r[k..];
    ZerosAreZeros(k);
    assert r[..k] == Zeros(k);
  }

  lemma ZeroPaddedRoundTrip(n: nat, width: nat)
    ensures DecimalValue(ZeroPadded(n, width)) == n
  {
    ZeroPaddedIsZerosThenNumeral(n, width);
    LeadingZerosIgnored(|ZeroPadded(n, width)| - |DecimalString(n)|, DecimalString(n));
    DecimalStringRoundTrip(n);
  }

  /** A fixed-width digit field is the zero-padded numeral of its own value. */
  lemma DigitsRoundTrip(ds: string)
    requires 1 <= |ds| && AllDecimalDigits(ds)
    ensures ZeroPadded(DecimalValue(ds), |ds|) == ds
  {
    DigitsAreCanonicalPadded(ds);
    var n := DecimalValue(ds);
    ZeroPaddedIsZerosThenNumeral(n, |ds|);
  }

  /** `s.startsWith(prefix)`. */
  predicate StartsWith(s: string, prefix: string) {
    prefix <= s
  }

  // ---------------------------------------------------------------------------
  // split

  /** `s.split(sep)` for a one-character separator: the maximal separator-free pieces, in order. */
  function Split(s: string, sep: char): (r: seq<string>)
    ensures |r| >= 1
    ensures forall i :: 0 <= i < |r| ==> sep !in r[i]
    decreases |s|
  {
    if s == [] then [[]]
    else
      var rest := Split(s[1..], sep);
      if s[0] == sep then [[]] + rest else [[s[0]] + rest[0]] + rest[1..]
  }

  /** `pieces.join(sep)`, the inverse of `Split`. */
  function Join(pieces: seq<string>, sep: char): string
    requires |pieces| >= 1
  {
    if |pieces| == 1 then pieces[0] else pieces[0] + [sep] + Join(pieces[1..], sep)
  }

  lemma {:induction false} JoinSplit(s: string, sep: char)
    ensures Join(Split(s, sep), sep) == s
    decreases |s|
  {
    if s != [] {
      var rest := Split(s[1..], sep);
      JoinSplit(s[1..], sep);
      if s[0] == sep {
        assert Split(s, sep)[1..] == rest;
      } else {
        var r := Split(s, sep);
        if |rest| == 1 {
          assert r == [[s[0]] + rest[0]];
        } else {
          assert r[1..] == rest[1..];
          assert Join(rest, sep) == rest[0] + [sep] + Join(rest[1..], sep);
        }
      }
    }
  }

  lemma {:induction false} SplitWithoutSeparator(s: string, sep: char)
    requires sep !in s
    ensures Split(s, sep) == [s]
    decreases |s|
  {
    if s != [] {
      SplitWithoutSeparator(s[1..], sep);
      assert [s[0]] + s[1..] == s;
    }
  }

  lemma {:induction false} SplitAtFirstSeparator(a: string, sep: char, b: string)
    requires sep !in a
    ensures Split(a + [sep] + b, sep) == [a] + Split(b, sep)
    decreases |a|
  {
    var s := a + [sep] + b;
    if a == [] {
      assert s[1..] == b;
    } else {
      assert s[1..] == a[1..] + [sep] + b;
      SplitAtFirstSeparator(a[1..], sep, b);
      assert [a[0]] + a[1..] == a;
    }
  }

  /** `s.split(sep)[k]`, or the text `parseInt` makes of `undefined` when there is no such piece. */
  function SplitField(s: string, sep: char, k: nat): string {
    var pieces := Split(s, sep);
    if k < |pieces| then pieces[k] else "undefined"
  }

  // ---------------------------------------------------------------------------
  // parseInt

  /** JavaScript's WhiteSpace and LineTerminator characters, which `parseInt` skips. */
  predicate IsJsSpace(c: char) {
    || c == '\t' || c == '\n' || c == '\U{000B}' || c == '\U{000C}' || c == '\r' || c == ' '
    || c == '\U{00A0}' || c == '\U{1680}' || ('\U{2000}' <= c <= '\U{200A}')
    || c == '\U{2028}' || c == '\U{2029}' || c == '\U{202F}' || c == '\U{205F}'
    || c == '\U{3000}' || c == '\U{FEFF}'
  }

  function TrimStart(s: string): (r: string)
    ensures |r| <= |s| && r == s[|s| - |r|..]
    ensures r == [] || !IsJsSpace(r[0])
    ensures forall i :: 0 <= i < |s| - |r| ==> IsJsSpace(s[i])
  {
    if s != [] && IsJsSpace(s[0]) then TrimStart(s[1..]) else s
  }

  /** The longest prefix of `s` made of digits of the radix. */
  function DigitPrefix(s: string, radix: nat): (r: string)
    ensures r <= s
    ensures forall i :: 0 <= i < |r| ==> IsDigitIn(r[i], radix)
    ensures |r| < |s| ==> !IsDigitIn(s[|r|], radix)
  {
    if s != [] && IsDigitIn(s[0], radix) then [s[0]] + DigitPrefix(s[1..], radix) else []
  }

  /**
   * `parseInt(s)` with no radix: leading white space is skipped, one sign is read,
   * a `0x`/`0X` prefix selects radix 16, and the longest run of digits that follows
   * is the number; no digit at all is `NaN` (here `None`).
   */
  function ParseInt(s: string): Option<int> {
    ParseTrimmed(TrimStart(s))
  }

  /** `parseInt` once the white space is skipped. */
  function ParseTrimmed(t: string): Option<int> {
    var negative := t != [] && t[0] == '-';
    var u := if t != [] && (t[0] == '-' || t[0] == '+') then t[1..] else t;
    var hex := |u| >= 2 && u[0] == '0' && (u[1] == 'x' || u[1] == 'X');
    var radix := if hex then 16 else 10;
    var digits := DigitPrefix(if hex then u[2..] else u, radix);
    var magnitude: int := DigitsValue(digits, radix);
    if digits == [] then None
    else if negative then Some(-magnitude)
    else Some(magnitude)
  }

  /**
   * `parseFloat(s)` as far as its whole-number part: leading white space is
   * skipped, one sign is read, then the longest run of decimal digits; there is
   * no `0x` prefix, so "0x10" reads as 0. No digit at all is `NaN` (`None`).
   */
  function ParseFloat(s: string): Option<int> {
    var t := TrimStart(s);
    var negative := t != [] && t[0] == '-';
    var u := if t != [] && (t[0] == '-' || t[0] == '+') then t[1..] else t;
    var digits := DigitPrefix(u, 10);
    var magnitude: int := DecimalValue(digits);
    if digits == [] then None
    else if negative then Some(-magnitude)
    else Some(magnitude)
  }

  /** Text that `Number` reads in radix 16, 2 or 8: `0x`, `0b` or `0o` after the white space. */
  predicate RadixLiteral(s: string) {
    var t := TrimStart(s);
    |t| >= 2 && t[0] == '0' && (t[1] == 'x' || t[1] == 'X' || t[1] == 'b' || t[1] == 'B' || t[1] == 'o' || t[1] == 'O')
  }

  /** `parseFloat` stops at the letter of a radix prefix: what it reads is the leading zero. */
  lemma RadixLiteralReadsZero(s: string)
    requires RadixLiteral(s)
    ensures ParseFloat(s) == Some(0)
  {
    var t := TrimStart(s);
    ZeroThenLetter(t);
    assert DecimalValue("0") == 0 by {
      assert "0"[..0] == [];
    }
  }

  lemma ZeroThenLetter(t: string)
    requires |t| >= 2 && t[0] == '0' && !IsDigitIn(t[1], 10)
    ensures DigitPrefix(t, 10) == "0"
  {
    assert t[1..][0] == t[1];
    assert DigitPrefix(t[1..], 10) == [];
  }

  lemma DigitPrefixOfDigits(ds: string)
    requires AllDecimalDigits(ds)
    ensures DigitPrefix(ds, 10) == ds
  {
  }

  lemma DigitIsNotSpace(c: char)
    requires IsDecimalDigit(c)
    ensures !IsJsSpace(c)
  {
  }

  /** Leading white space does not change what `parseInt` reads. */
  lemma ParseIntSkipsSpace(s: string)
    requires s != [] && IsJsSpace(s[0])
    ensures ParseInt(s) == ParseInt(s[1..])
  {
    assert TrimStart(s) == TrimStart(s[1..]);
  }

  /** On text that starts with no white space, no sign and no `0x`, `parseInt` reads the leading decimal digits. */
  lemma ParseIntPlain(s: string)
    requires s != [] && !IsJsSpace(s[0]) && s[0] != '-' && s[0] != '+'
    requires !(|s| >= 2 && s[0] == '0' && (s[1] == 'x' || s[1] == 'X'))
    ensures var ds := DigitPrefix(s, 10);
      ParseInt(s) == if ds == [] then None else Some(DecimalValue(ds))
  {
    NothingToTrim(s);
  }

  lemma NothingToTrim(s: string)
    requires s == [] || !IsJsSpace(s[0])
    ensures TrimStart(s) == s
  {
  }

  /** On a plain run of decimal digits `parseInt` is the decimal value, leading zeros and all. */
  lemma ParseIntOfDigits(ds: string)
    requires 1 <= |ds| && AllDecimalDigits(ds)
    ensures ParseInt(ds) == Some(DecimalValue(ds))
  {
    DigitIsNotSpace(ds[0]);
    ParseIntPlain(ds);
    DigitPrefixOfDigits(ds);
  }

  lemma ParseIntOfZeroPadded(n: nat, width: nat)
    ensures ParseInt(ZeroPadded(n, width)) == Some(n)
  {
    ZeroPaddedRoundTrip(n, width);
    ParseIntOfDigits(ZeroPadded(n, width));
  }

  /** `parseInt(undefined)` reads the text "undefined", which has no digit. */
  lemma ParseIntOfUndefined(s: string)
    requires s == "undefined"
    ensures ParseInt(s) == None
  {
    assert s[0] == 'u';
    ParseIntPlain(s);
  }

  /** The hexadecimal prefix is honoured: `parseInt("0x0c")` is twelve. */
  lemma ParseIntReadsHexPrefix(s: string)
    requires s == "0x0c"
    ensures ParseInt(s) == Some(12)
  {
    assert s[0] == '0' && s[1] == 'x';
    DigitIsNotSpace(s[0]);
    NothingToTrim(s);
    var digits := s[2..];
    assert digits == "0c";
    assert DigitPrefix(digits[2..], 16) == [];
    assert DigitPrefix(digits, 16) == digits;
    assert DigitsValue(digits[..1], 16) == 0;
    assert DigitsValue(digits, 16) == DigitsValue(digits[..1], 16) * 16 + 12;
  }

  /** Leading white space and trailing junk are ignored: `parseInt(" 7th")` is seven. */
  lemma ParseIntSkipsSpaceAndJunk(s: string)
    requires s == " 7th"
    ensures ParseInt(s) == Some(7)
  {
    assert IsJsSpace(s[0]);
    ParseIntSkipsSpace(s);
    var rest := s[1..];
    assert rest[0] == '7' && rest[1] == 't';
    DigitIsNotSpace(rest[0]);
    ParseIntPlain(rest);
    assert DigitPrefix(rest[1..], 10) == [];
    assert DigitPrefix(rest, 10) == "7";
    assert DecimalValue("7") == DigitsValue("", 10) * 10 + 7;
  }
}

=== FILE: mobile.dfy ===
/**
 * The mobile dashboard of mobile_app/script.js: the daily list, and for every
 * other filter one summary over all loaded transactions; and the check its
 * payment form makes.
 */
module Mobile {
  import opened Records
  import opened Aggregation

  /** What the mobile `renderDashboard` shows for a filter and a selected date text. */
  function View(txs: seq<Transaction>, period: Period, day: string): (v: Dashboard)
    ensures v.balance == v.totalIncome - v.totalExpense
  {
    if period == Daily then
      var entries := OnDate(txs, day);
      Shown(Entries(entries), SumAll(entries))
    else
      Shown(Summary, SumAll(txs))
  }

  /** The `forEach` loops of `renderDashboard`, with the HTML left out. */
  method RenderDashboard(txs: seq<Transaction>, period: Period, day: string) returns (view: Dashboard)
    ensures view == View(txs, period, day)
  {
    if period == Daily {
      var filtered := OnDate(txs, day);
      var totalInc, totalExp := AccumulateAll(filtered);
      view := Shown(Entries(filtered), Totals(totalInc, totalExp));
    } else {
      var totalInc, totalExp := AccumulateAll(txs);
      view := Shown(Summary, Totals(totalInc, totalExp));
    }
  }

  /** Outside the daily filter neither the filter nor the date matters: everything loaded is summed. */
  lemma SummaryIgnoresFilterAndDate(txs: seq<Transaction>, p: Period, q: Period, a: string, b: string)
    requires p != Daily && q != Daily
    ensures View(txs, p, a) == View(txs, q, b)
    ensures Totals(View(txs, p, a).totalIncome, View(txs, p, a).totalExpense) == SumAll(txs)
  {
  }

  /** One more transaction adds its contribution to the totals, except on a daily view of another date. */
  lemma AppendingATransaction(txs: seq<Transaction>, t: Transaction, period: Period, day: string)
    ensures var before, after := View(txs, period, day), View(txs + [t], period, day);
      Totals(after.totalIncome, after.totalExpense)
        == Totals(before.totalIncome, before.totalExpense).Plus(
             if period == Daily && t.date != day then Zero else Contribution(t))
  {
    assert (txs + [t])[..|txs|] == txs;
    if period == Daily {
      var entries := OnDate(txs, day);
      if t.date == day {
        assert OnDate(txs + [t], day) == entries + [t];
        SumAllSnoc(entries, t);
      } else {
        assert OnDate(txs + [t], day) == entries;
      }
    } else {
      SumAllSnoc(txs, t);
    }
  }

  /** A counted transaction whose type is not exactly "income" raises the expense total only. */
  lemma NonIncomeIsExpense(txs: seq<Transaction>, t: Transaction, period: Period, day: string)
    requires t.kind != "income" && (period == Daily ==> t.date == day)
    ensures var before, after := View(txs, period, day), View(txs + [t], period, day);
      after.totalIncome == before.totalIncome && after.totalExpense == before.totalExpense + t.amount
  {
    AppendingATransaction(txs, t, period, day);
  }

  /** The guard in `processPayment`: only a blank field is refused. */
  function CheckPayment(raw: string): (r: PaymentEntry)
    ensures r.Refused? <==> raw == ""
    ensures r.Posted? ==> r.paymentAmount == raw
  {
    if raw == "" then Refused else Posted(raw)
  }

  /** Zero, negative and non-numeric text are all posted. */
  lemma UncheckedPayments()
    ensures CheckPayment("0") == Posted("0")
    ensures CheckPayment("-5") == Posted("-5")
    ensures CheckPayment("abc") == Posted("abc")
  {
  }
}

=== FILE: records.dfy ===
/** The rows of the three tables, as the server stores them and the clients receive them. */
module Records {
  /** A row of `transactions`; `kind` is the `type` column, amounts are in cents. */
  datatype Transaction = Transaction(id: int, userId: int, kind: string, amount: int, description: string, date: string)

  /** A row of `debts`: `amount` is what remains to be paid. */
  datatype Debt = Debt(id: int, userId: int, personName: string, amount: int, direction: string, dateBorrowed: string, dateDue: string)

  /** A row of `users`; `passwordHash` is the stored bcrypt hash. */
  datatype User = User(id: int, username: string, passwordHash: string)

  /** What a client's payment form does: refuse, or post `{id, payment_amount}` with the raw text. */
  datatype PaymentEntry = Refused | Posted(paymentAmount: string)
}

/**
 * Income/expense sums over transaction lists, and the rows and totals both
 * dashboards display.
 */
module Aggregation {
  import opened Seqs
  import opened Records

  datatype Totals = Totals(income: int, expense: int) {
    function Plus(other: Totals): Totals {
      Totals(income + other.income, expense + other.expense)
    }
  }

  const Zero := Totals(0, 0)

  /** What one transaction adds: to income when its type is exactly "income", to expense otherwise. */
  function Contribution(t: Transaction): (r: Totals)
    ensures r.income + r.expense == t.amount
    ensures t.kind == "income" ==> r.expense == 0
    ensures t.kind != "income" ==> r.income == 0
  {
    if t.kind == "income" then Totals(t.amount, 0) else Totals(0, t.amount)
  }

  function DateOf(t: Transaction): string {
    t.date
  }

  /** `transactions.filter(t => t.date === selectedDateStr)`, used by both dashboards. */
  function OnDate(txs: seq<Transaction>, day: string): (r: seq<Transaction>)
    ensures forall t :: t in r <==> t in txs && t.date == day
  {
    if txs == [] then []
    else
      var front, t := txs[..|txs| - 1], txs[|txs| - 1];
      assert txs == front + [t];
      OnDate(front, day) + (if t.date == day then [t] else [])
  }

  /** Totals of every transaction of the list. */
  function SumAll(txs: seq<Transaction>): Totals {
    if txs == [] then Zero
    else SumAll(txs[..|txs| - 1]).Plus(Contribution(txs[|txs| - 1]))
  }

  /** Totals of the transactions whose key is `k`. */
  function SumWhere<K(==)>(txs: seq<Transaction>, key: Transaction -> K, k: K): Totals {
    if txs == [] then Zero
    else
      var t := txs[|txs| - 1];
      SumWhere(txs[..|txs| - 1], key, k).Plus(if key(t) == k then Contribution(t) else Zero)
  }

  /** Totals of the transactions whose key is one of `ks`, each transaction counted once. */
  function SumIn<K(==)>(txs: seq<Transaction>, key: Transaction -> K, ks: seq<K>): Totals {
    if txs == [] then Zero
    else
      var t := txs[|txs| - 1];
      SumIn(txs[..|txs| - 1], key, ks).Plus(if key(t) in ks then Contribution(t) else Zero)
  }

  predicate Distinct<K(==)>(ks: seq<K>) {
    forall i, j :: 0 <= i < j < |ks| ==> ks[i] != ks[j]
  }

  /** One displayed bucket: its label, income, expense and revenue. */
  datatype Row = Row(name: string, income: int, expense: int, revenue: int)

  function RowOf(name: string, t: Totals): Row {
    Row(name, t.income, t.expense, t.income - t.expense)
  }

  /** What the dashboards accumulate into `totalInc`/`totalExp` row by row. */
  function RowsTotal(rows: seq<Row>): Totals {
    if rows == [] then Zero
    else RowsTotal(rows[..|rows| - 1]).Plus(Totals(rows[|rows| - 1].income, rows[|rows| - 1].expense))
  }

  /** One row per key, in key order, each summing the transactions with that key. */
  function KeyedRows<K(==)>(txs: seq<Transaction>, key: Transaction -> K, ks: seq<K>, names: seq<string>): (rows: seq<Row>)
    requires |names| == |ks|
    ensures |rows| == |ks|
  {
    seq(|ks|, i requires 0 <= i < |ks| => RowOf(names[i], SumWhere(txs, key, ks[i])))
  }

  /** Row `i` is labelled `names[i]`, and every row's revenue is its income less its expense. */
  lemma KeyedRowsShape<K>(txs: seq<Transaction>, key: Transaction -> K, ks: seq<K>, names: seq<string>)
    requires |names| == |ks|
    ensures var rows := KeyedRows(txs, key, ks, names);
      && (forall i :: 0 <= i < |rows| ==> rows[i].name == names[i])
      && (forall r :: r in rows ==> r.revenue == r.income - r.expense)
  {
  }

  lemma {:induction false} SumInAddKey<K>(txs: seq<Transaction>, key: Transaction -> K, ks: seq<K>, k: K)
    requires k !in ks
    ensures SumIn(txs, key, ks + [k]) == SumIn(txs, key, ks).Plus(SumWhere(txs, key, k))
    decreases |txs|
  {
    if txs != [] {
      var front, t := txs[..|txs| - 1], txs[|txs| - 1];
      SumInAddKey(front, key, ks, k);
      var inKs, atK := SumIn(front, key, ks), SumWhere(front, key, k);
      var c := Contribution(t);
      var cIn := if key(t) in ks then c else Zero;
      var cAt := if key(t) == k then c else Zero;
      assert key(t) in ks + [k] <==> key(t) in ks || key(t) == k;
      assert (if key(t) in ks + [k] then c else Zero) == cIn.Plus(cAt);
      assert SumIn(txs, key, ks + [k]) == inKs.Plus(atK).Plus(cIn.Plus(cAt));
      assert SumIn(txs, key, ks) == inKs.Plus(cIn);
      assert SumWhere(txs, key, k) == atK.Plus(cAt);
    }
  }

  lemma KeyedRowsSnoc<K>(txs: seq<Transaction>, key: Transaction -> K, ks: seq<K>, names: seq<string>)
    requires |names| == |ks| && ks != []
    ensures var n := |ks| - 1;
      KeyedRows(txs, key, ks, names)
        == KeyedRows(txs, key, ks[..n], names[..n]) + [RowOf(names[n], SumWhere(txs, key, ks[n]))]
  {
    var n := |ks| - 1;
    var rows := KeyedRows(txs, key, ks, names);
    var before := KeyedRows(txs, key, ks[..n], names[..n]);
    assert rows[..n] == before;
    assert rows == rows[..n] + [rows[n]];
  }

  lemma LastKeyIsNew<K>(ks: seq<K>)
    requires Distinct(ks) && ks != []
    ensures Distinct(ks[..|ks| - 1]) && ks[|ks| - 1] !in ks[..|ks| - 1]
  {
    var n := |ks| - 1;
    forall i | 0 <= i < n ensures ks[..n][i] != ks[n] { assert ks[i] != ks[n]; }
  }

  /**
   * Summing the rows of distinct keys is summing, once each, the transactions whose
   * key is among them: no transaction is counted twice and none outside the keys.
   */
  lemma {:induction false} RowsTotalIsSumIn<K>(txs: seq<Transaction>, key: Transaction -> K, ks: seq<K>, names: seq<string>)
    requires |names| == |ks| && Distinct(ks)
    ensures RowsTotal(KeyedRows(txs, key, ks, names)) == SumIn(txs, key, ks)
    decreases |ks|
  {
    if ks == [] {
      NoKeysNoSum(txs, key, ks);
    } else {
      var n := |ks| - 1;
      var front, last := ks[..n], ks[n];
      var before := KeyedRows(txs, key, front, names[..n]);
      var row := RowOf(names[n], SumWhere(txs, key, last));
      KeyedRowsSnoc(txs, key, ks, names);
      RowsTotalSnoc(before, row);
      LastKeyIsNew(ks);
      RowsTotalIsSumIn(txs, key, front, names[..n]);
      SumInAddKey(txs, key, front, last);
      SplitLast(ks);
    }
  }

  lemma {:induction false} NoKeysNoSum<K>(txs: seq<Transaction>, key: Transaction -> K, ks: seq<K>)
    requires ks == []
    ensures SumIn(txs, key, ks) == Zero
    decreases |txs|
  {
    if txs != [] {
      NoKeysNoSum(txs[..|txs| - 1], key, ks);
    }
  }

  lemma SumAllSnoc(txs: seq<Transaction>, t: Transaction)
    ensures SumAll(txs + [t]) == SumAll(txs).Plus(Contribution(t))
  {
    assert (txs + [t])[..|txs|] == txs;
  }

  /** Adding one transaction to the list adds it to exactly the rows whose key it has. */
  lemma KeyedRowGains<K>(txs: seq<Transaction>, t: Transaction, key: Transaction -> K, ks: seq<K>, names: seq<string>, i: nat)
    requires |names| == |ks| && i < |ks|
    ensures KeyedRows(txs + [t], key, ks, names)[i]
         == RowOf(names[i], SumWhere(txs, key, ks[i]).Plus(if key(t) == ks[i] then Contribution(t) else Zero))
  {
    assert (txs + [t])[..|txs|] == txs;
  }

  /** `for` loop over the list summing the transactions whose key is `k`. */
  method Accumulate<K(==)>(txs: seq<Transaction>, key: Transaction -> K, k: K) returns (inc: int, exp: int)
    ensures Totals(inc, exp) == SumWhere(txs, key, k)
  {
    inc, exp := 0, 0;
    for j := 0 to |txs|
      invariant Totals(inc, exp) == SumWhere(txs[..j], key, k)
    {
      var t := txs[j];
      assert txs[..j + 1][..j] == txs[..j];
      if key(t) == k {
        if t.kind == "income" { inc := inc + t.amount; } else { exp := exp + t.amount; }
      }
    }
    assert txs[..|txs|] == txs;
  }

  /** `forEach` over the list adding every transaction to income or expense. */
  method AccumulateAll(txs: seq<Transaction>) returns (inc: int, exp: int)
    ensures Totals(inc, exp) == SumAll(txs)
  {
    inc, exp := 0, 0;
    for j := 0 to |txs|
      invariant Totals(inc, exp) == SumAll(txs[..j])
    {
      var t := txs[j];
      assert txs[..j + 1][..j] == txs[..j];
      if t.kind == "income" { inc := inc + t.amount; } else { exp := exp + t.amount; }
    }
    assert txs[..|txs|] == txs;
  }

  lemma RowsTotalSnoc(rows: seq<Row>, row: Row)
    ensures RowsTotal(rows + [row]) == RowsTotal(rows).Plus(Totals(row.income, row.expense))
  {
    assert (rows + [row])[..|rows|] == rows;
  }

  lemma AddRow(rows: seq<Row>, row: Row, totalInc: int, totalExp: int)
    requires Totals(totalInc, totalExp) == RowsTotal(rows)
    ensures Totals(totalInc + row.income, totalExp + row.expense) == RowsTotal(rows + [row])
  {
    RowsTotalSnoc(rows, row);
  }

  /**
   * The bucket loops of `renderDashboard`: for each key one inner loop over the
   * list gives the row's income and expense, which are then added to the totals.
   */
  method Tabulate<K(==)>(txs: seq<Transaction>, key: Transaction -> K, ks: seq<K>, names: seq<string>)
    returns (rows: seq<Row>, totalInc: int, totalExp: int)
    requires |names| == |ks|
    ensures rows == KeyedRows(txs, key, ks, names)
    ensures Totals(totalInc, totalExp) == RowsTotal(rows)
  {
    ghost var all := KeyedRows(txs, key, ks, names);
    rows, totalInc, totalExp := [], 0, 0;
    for i := 0 to |ks|
      invariant |rows| == i && forall k :: 0 <= k < i ==> rows[k] == all[k]
      invariant Totals(totalInc, totalExp) == RowsTotal(rows)
    {
      var inc, exp := Accumulate(txs, key, ks[i]);
      var row := RowOf(names[i], Totals(inc, exp));
      assert row == all[i];
      AddRow(rows, row, totalInc, totalExp);
      rows := rows + [row];
      totalInc, totalExp := totalInc + inc, totalExp + exp;
    }
    assert rows == all;
  }

  /** Which rows a dashboard shows. */
  datatype Period = Daily | Weekly | Monthly | Yearly

  /** The table under the totals: the day's transactions, bucket rows, or the mobile summary line. */
  datatype Table = Entries(entries: seq<Transaction>) | Buckets(rows: seq<Row>) | Summary

  /** What a dashboard displays: its table and the three figures `sum-income`, `sum-expense`, `sum-balance`. */
  datatype Dashboard = Dashboard(table: Table, totalIncome: int, totalExpense: int, balance: int)

  /** A table with the given totals, the balance being income less expense. */
  function Shown(table: Table, t: Totals): Dashboard {
    Dashboard(table, t.income, t.expense, t.income - t.expense)
  }
}

=== FILE: seqs.dfy ===
/** Small facts about cutting sequences, kept out of the larger proofs' contexts. */
module Seqs {
  lemma SplitLast<T>(s: seq<T>)
    requires s != []
    ensures s == s[..|s| - 1] + [s[|s| - 1]]
  {
  }

  lemma PrefixSnoc<T>(s: seq<T>, i: nat)
    requires i < |s|
    ensures s[..i + 1] == s[..i] + [s[i]]
  {
  }

  lemma AppendAssoc<T>(a: seq<T>, b: seq<T>, c: seq<T>)
    ensures a + b + c == a + (b + c)
  {
  }
}

=== FILE: server.dfy ===
/**
 * The server's per-user table operations: the `isAuth` guard, `/debt-update`,
 * `/delete-data`, `/delete-account` and `/transactions`, over an in-memory copy
 * of the three SQLite tables (rows in rowid order).
 */
module Server {
  import opened Wrappers
  import opened Seqs
  import opened Records

  // ---------------------------------------------------------------------------
  // Responses and the session guard

  datatype Response = Response(status: int, message: string)

  const LoginRequired := Response(401, "Login required")
  const NotFound := Response(404, "Not found")
  const BadPass := Response(403, "Bad Pass")

  function Ok(message: string): Response {
    Response(200, message)
  }

  /** `isAuth`: the session carries a user id, and it is truthy (0 is not). */
  predicate Authenticated(session: Option<int>) {
    session.Some? && session.value != 0
  }

  // ---------------------------------------------------------------------------
  // Rows and keys

  function UserKey(u: User): int { u.id }
  function TxKey(t: Transaction): int { t.id }
  function TxOwner(t: Transaction): int { t.userId }
  function DebtKey(d: Debt): int { d.id }
  function DebtOwner(d: Debt): int { d.userId }

  /** No two rows share a key: what `INTEGER PRIMARY KEY` guarantees for `id`. */
  predicate UniqueBy<T>(rows: seq<T>, key: T -> int) {
    forall i, j :: 0 <= i < j < |rows| ==> key(rows[i]) != key(rows[j])
  }

  /** `DELETE FROM ... WHERE column = k`: the rows whose column is not `k`, in table order. */
  function Without<T(!new)>(rows: seq<T>, key: T -> int, k: int): (r: seq<T>)
    ensures forall x :: x in r <==> x in rows && key(x) != k
    ensures |r| <= |rows|
  {
    if rows == [] then []
    else
      var front, last := rows[..|rows| - 1], rows[|rows| - 1];
      assert rows == front + [last];
      Without(front, key, k) + (if key(last) != k then [last] else [])
  }

  /** `SELECT * ... WHERE column = k`: the rows whose column is `k`, in table order. */
  function Only<T(!new)>(rows: seq<T>, key: T -> int, k: int): (r: seq<T>)
    ensures forall x :: x in r <==> x in rows && key(x) == k
  {
    if rows == [] then []
    else
      var front, last := rows[..|rows| - 1], rows[|rows| - 1];
      assert rows == front + [last];
      Only(front, key, k) + (if key(last) == k then [last] else [])
  }

  /** Removing rows keeps the keys of the remaining ones distinct. */
  lemma {:induction false} WithoutKeepsUnique<T(!new)>(rows: seq<T>, key: T -> int, k: int, id: T -> int)
    requires UniqueBy(rows, id)
    ensures UniqueBy(Without(rows, key, k), id)
    decreases |rows|
  {
    if rows != [] {
      var front, last := rows[..|rows| - 1], rows[|rows| - 1];
      WithoutKeepsUnique(front, key, k, id);
      var kept := Without(front, key, k);
      if key(last) != k {
        forall x | x in kept ensures id(x) != id(last) {
          var i :| 0 <= i < |front| && front[i] == x;
          assert rows[i] == x;
        }
        var r := kept + [last];
        forall i, j | 0 <= i < j < |r| ensures id(r[i]) != id(r[j]) {
          if j == |kept| {
            assert r[i] in kept;
          } else {
            assert r[i] == kept[i] && r[j] == kept[j];
          }
        }
      }
    }
  }

  /** With distinct keys, deleting by the key of row `i` removes that row only. */
  lemma {:induction false} WithoutUniqueKey<T(!new)>(rows: seq<T>, key: T -> int, i: nat)
    requires UniqueBy(rows, key) && i < |rows|
    ensures Without(rows, key, key(rows[i])) == rows[..i] + rows[i + 1..]
    decreases |rows|
  {
    var k := key(rows[i]);
    var n := |rows| - 1;
    var front, last := rows[..n], rows[n];
    if i == n {
      forall x | x in front ensures key(x) != k {
        var j :| 0 <= j < n && front[j] == x;
        assert rows[j] == x;
      }
      WithoutAbsentKey(front, key, k);
      assert rows[..i] + rows[i + 1..] == front;
    } else {
      UniqueFront(rows, key);
      assert front[i] == rows[i];
      WithoutUniqueKey(front, key, i);
      assert key(last) != k;
      DropInFront(rows, i);
    }
  }

  lemma UniqueFront<T>(rows: seq<T>, key: T -> int)
    requires UniqueBy(rows, key) && rows != []
    ensures UniqueBy(rows[..|rows| - 1], key)
  {
    var front := rows[..|rows| - 1];
    forall a, b | 0 <= a < b < |front| ensures key(front[a]) != key(front[b]) {
      assert front[a] == rows[a] && front[b] == rows[b];
    }
  }

  lemma DropInFront<T>(rows: seq<T>, i: nat)
    requires i < |rows| - 1
    ensures var front := rows[..|rows| - 1];
      rows[..i] + rows[i + 1..] == front[..i] + front[i + 1..] + [rows[|rows| - 1]]
  {
  }

  lemma {:induction false} WithoutAbsentKey<T(!new)>(rows: seq<T>, key: T -> int, k: int)
    requires forall x :: x in rows ==> key(x) != k
    ensures Without(rows, key, k) == rows
    decreases |rows|
  {
    if rows != [] {
      var n := |rows| - 1;
      var front := rows[..n];
      forall x | x in front ensures key(x) != k {
        var j :| 0 <= j < n && front[j] == x;
        assert rows[j] == x;
      }
      WithoutAbsentKey(front, key, k);
      assert key(rows[n]) != k;
      SplitLast(rows);
    }
  }

  /** `db.get(... WHERE id = ? AND user_id = ?)`: the first debt row with that id and owner. */
  function FirstDebt(debts: seq<Debt>, id: int, userId: int): (r: Option<nat>)
    ensures r.Some? ==> r.value < |debts| && debts[r.value].id == id && debts[r.value].userId == userId
    ensures r.None? <==> forall d :: d in debts ==> !(d.id == id && d.userId == userId)
  {
    if debts == [] then None
    else if debts[0].id == id && debts[0].userId == userId then Some(0)
    else
      assert debts == [debts[0]] + debts[1..];
      match FirstDebt(debts[1..], id, userId)
      case None => None
      case Some(k) => Some(k + 1)
  }

  /** `db.get('SELECT password FROM users WHERE id = ?')`: the first user row with that id. */
  function FindUser(users: seq<User>, id: int): (r: Option<User>)
    ensures r.Some? ==> r.value in users && r.value.id == id
    ensures r.None? <==> forall u :: u in users ==> u.id != id
  {
    if users == [] then None
    else if users[0].id == id then Some(users[0])
    else
      assert users == [users[0]] + users[1..];
      FindUser(users[1..], id)
  }

  /** `UPDATE debts SET amount = ? WHERE id = ?`. */
  function SetAmount(debts: seq<Debt>, id: int, amount: int): (r: seq<Debt>)
    ensures |r| == |debts|
  {
    seq(|debts|, i requires 0 <= i < |debts| => if debts[i].id == id then debts[i].(amount := amount) else debts[i])
  }

  /** With distinct ids, the update changes the amount of row `k` and nothing else. */
  lemma SetAmountOfUniqueKey(debts: seq<Debt>, k: nat, amount: int)
    requires UniqueBy(debts, DebtKey) && k < |debts|
    ensures SetAmount(debts, debts[k].id, amount) == debts[k := debts[k].(amount := amount)]
  {
    var r := SetAmount(debts, debts[k].id, amount);
    forall i | 0 <= i < |debts| && i != k ensures r[i] == debts[i] {
      if i < k {
        assert DebtKey(debts[i]) != DebtKey(debts[k]);
      } else {
        assert DebtKey(debts[k]) != DebtKey(debts[i]);
      }
    }
  }

  // ---------------------------------------------------------------------------
  // The debt ledger: settle or update

  datatype Settlement = Settled | Updated(remaining: int)

  /** `newAmount = debt.amount - parseFloat(payment_amount)`; at zero or below the debt is settled. */
  function ApplyPayment(amount: int, payment: int): (s: Settlement)
    ensures s.Settled? <==> amount - payment <= 0
    ensures s.Updated? ==> s.remaining == amount - payment && 0 < s.remaining
  {
    var newAmount := amount - payment;
    if newAmount <= 0 then Settled else Updated(newAmount)
  }

  /** No remaining balance of zero or less is ever produced. */
  lemma RemainingIsPositive(amount: int, payment: int)
    ensures match ApplyPayment(amount, payment)
      case Settled => payment >= amount
      case Updated(r) => 0 < r && r == amount - payment && (0 < payment ==> r < amount)
  {
  }

  /** The server makes no sign check: a negative payment adds to what is owed. */
  lemma NegativePaymentGrowsDebt(amount: int, payment: int)
    requires 0 < amount && payment < 0
    ensures ApplyPayment(amount, payment) == Updated(amount - payment)
    ensures amount < amount - payment
  {
  }

  lemma PaymentExamples()
    ensures ApplyPayment(50, 50) == Settled
    ensures ApplyPayment(50, 20) == Updated(30)
    ensures ApplyPayment(50, 60) == Settled
  {
  }

  // ---------------------------------------------------------------------------
  // The store and the four handlers as transitions

  datatype Store = Store(users: seq<User>, transactions: seq<Transaction>, debts: seq<Debt>)

  predicate WellKeyed(s: Store) {
    UniqueBy(s.users, UserKey) && UniqueBy(s.transactions, TxKey) && UniqueBy(s.debts, DebtKey)
  }

  /** What a handler answers, the tables after it, and the session after it. */
  datatype Reply = Reply(response: Response, store: Store, session: Option<int>)

  /** `POST /debt-update` with the parsed payment. */
  function DebtUpdateReply(s: Store, session: Option<int>, id: int, payment: int): Reply {
    if !Authenticated(session) then Reply(LoginRequired, s, session)
    else
      match FirstDebt(s.debts, id, session.value)
      case None => Reply(NotFound, s, session)
      case Some(k) =>
        match ApplyPayment(s.debts[k].amount, payment)
        case Settled => Reply(Ok("Settled"), s.(debts := Without(s.debts, DebtKey, id)), session)
        case Updated(r) => Reply(Ok("Updated"), s.(debts := SetAmount(s.debts, id, r)), session)
  }

  /** The password check of both delete routes; `matches` is `bcrypt.compare`. */
  predicate PasswordAccepted(users: seq<User>, userId: int, password: string, matches: (string, string) -> bool) {
    match FindUser(users, userId)
    case None => false
    case Some(u) => matches(password, u.passwordHash)
  }

  /** The two `DELETE ... WHERE user_id = ?` statements. */
  function Wiped(s: Store, userId: int): Store {
    s.(transactions := Without(s.transactions, TxOwner, userId), debts := Without(s.debts, DebtOwner, userId))
  }

  /** `POST /delete-data`. */
  function DeleteDataReply(s: Store, session: Option<int>, password: string, matches: (string, string) -> bool): Reply {
    if !Authenticated(session) then Reply(LoginRequired, s, session)
    else if !PasswordAccepted(s.users, session.value, password, matches) then Reply(BadPass, s, session)
    else Reply(Ok("Wiped"), Wiped(s, session.value), session)
  }

  /** `POST /delete-account`: as delete-data, then the user row, then the session. */
  function DeleteAccountReply(s: Store, session: Option<int>, password: string, matches: (string, string) -> bool): Reply {
    if !Authenticated(session) then Reply(LoginRequired, s, session)
    else if !PasswordAccepted(s.users, session.value, password, matches) then Reply(BadPass, s, session)
    else
      var u := session.value;
      Reply(Ok("Deleted"), Wiped(s, u).(users := Without(s.users, UserKey, u)), None)
  }

  // ---------------------------------------------------------------------------
  // Properties of the transitions

  /** Without a truthy session user every route answers 401 and touches no table. */
  lemma UnauthenticatedChangesNothing(s: Store, session: Option<int>, id: int, payment: int, password: string, matches: (string, string) -> bool)
    requires session.None? || session == Some(0)
    ensures DebtUpdateReply(s, session, id, payment) == Reply(LoginRequired, s, session)
    ensures DeleteDataReply(s, session, password, matches) == Reply(LoginRequired, s, session)
    ensures DeleteAccountReply(s, session, password, matches) == Reply(LoginRequired, s, session)
  {
  }

  /** No debt with both that id and the caller as owner: 404, nothing changes. */
  lemma DebtUpdateNotFound(s: Store, u: int, id: int, payment: int)
    requires u != 0
    requires forall d :: d in s.debts ==> !(d.id == id && d.userId == u)
    ensures DebtUpdateReply(s, Some(u), id, payment) == Reply(NotFound, s, Some(u))
  {
  }

  /** Paying off at least the whole amount deletes exactly that debt row. */
  lemma DebtUpdateSettles(s: Store, u: int, k: nat, payment: int)
    requires WellKeyed(s) && u != 0 && k < |s.debts| && s.debts[k].userId == u
    requires s.debts[k].amount - payment <= 0
    ensures DebtUpdateReply(s, Some(u), s.debts[k].id, payment)
         == Reply(Ok("Settled"), s.(debts := s.debts[..k] + s.debts[k + 1..]), Some(u))
  {
    FirstDebtIsUnique(s.debts, k);
    WithoutUniqueKey(s.debts, DebtKey, k);
  }

  /** Paying less than the amount changes that row's amount to what is left, and nothing else. */
  lemma DebtUpdateUpdates(s: Store, u: int, k: nat, payment: int)
    requires WellKeyed(s) && u != 0 && k < |s.debts| && s.debts[k].userId == u
    requires s.debts[k].amount - payment > 0
    ensures DebtUpdateReply(s, Some(u), s.debts[k].id, payment)
         == Reply(Ok("Updated"), s.(debts := s.debts[k := s.debts[k].(amount := s.debts[k].amount - payment)]), Some(u))
  {
    FirstDebtIsUnique(s.debts, k);
    SetAmountOfUniqueKey(s.debts, k, s.debts[k].amount - payment);
  }

  lemma FirstDebtIsUnique(debts: seq<Debt>, k: nat)
    requires UniqueBy(debts, DebtKey) && k < |debts|
    ensures FirstDebt(debts, debts[k].id, debts[k].userId) == Some(k)
  {
    var r := FirstDebt(debts, debts[k].id, debts[k].userId);
    assert debts[k] in debts;
    var j := r.value;
    assert j < k ==> DebtKey(debts[j]) != DebtKey(debts[k]);
    assert k < j ==> DebtKey(debts[k]) != DebtKey(debts[j]);
  }

  /** Ids stay distinct. */
  lemma DebtUpdateKeepsKeys(s: Store, session: Option<int>, id: int, payment: int)
    requires WellKeyed(s)
    ensures WellKeyed(DebtUpdateReply(s, session, id, payment).store)
  {
    if Authenticated(session) && FirstDebt(s.debts, id, session.value).Some? {
      var k := FirstDebt(s.debts, id, session.value).value;
      match ApplyPayment(s.debts[k].amount, payment)
      case Settled =>
        WithoutKeepsUnique(s.debts, DebtKey, id, DebtKey);
      case Updated(r) =>
        SetAmountOfUniqueKey(s.debts, k, r);
        var ds := s.debts[k := s.debts[k].(amount := r)];
        forall i, j | 0 <= i < j < |ds| ensures DebtKey(ds[i]) != DebtKey(ds[j]) {
          assert DebtKey(ds[i]) == DebtKey(s.debts[i]) && DebtKey(ds[j]) == DebtKey(s.debts[j]);
        }
    }
  }

  /** A table whose debts are all above zero keeps them so: settling deletes instead of storing zero or less. */
  lemma DebtUpdateKeepsAmountsPositive(s: Store, session: Option<int>, id: int, payment: int)
    requires WellKeyed(s) && forall d :: d in s.debts ==> d.amount > 0
    ensures forall d :: d in DebtUpdateReply(s, session, id, payment).store.debts ==> d.amount > 0
  {
    if Authenticated(session) && FirstDebt(s.debts, id, session.value).Some? {
      var k := FirstDebt(s.debts, id, session.value).value;
      match ApplyPayment(s.debts[k].amount, payment)
      case Settled =>
      case Updated(r) =>
        SetAmountOfUniqueKey(s.debts, k, r);
        var ds := s.debts[k := s.debts[k].(amount := r)];
        forall d | d in ds ensures d.amount > 0 {
          var i :| 0 <= i < |ds| && ds[i] == d;
          if i != k { assert s.debts[i] in s.debts; }
        }
    }
  }

  /** A wrong password, or no user row for the session: 403, nothing changes. */
  lemma DeleteRefusedOnBadPassword(s: Store, u: int, password: string, matches: (string, string) -> bool)
    requires u != 0 && !PasswordAccepted(s.users, u, password, matches)
    ensures DeleteDataReply(s, Some(u), password, matches) == Reply(BadPass, s, Some(u))
    ensures DeleteAccountReply(s, Some(u), password, matches) == Reply(BadPass, s, Some(u))
  {
  }

  /** Wiping removes exactly the caller's transactions and debts; users and everyone else's rows stay. */
  lemma DeleteDataRemovesExactlyTheCallersRows(s: Store, u: int, password: string, matches: (string, string) -> bool)
    requires u != 0 && PasswordAccepted(s.users, u, password, matches)
    ensures var r := DeleteDataReply(s, Some(u), password, matches);
      && r.response == Ok("Wiped") && r.session == Some(u)
      && r.store.users == s.users
      && (forall t :: t in r.store.transactions <==> t in s.transactions && t.userId != u)
      && (forall d :: d in r.store.debts <==> d in s.debts && d.userId != u)
  {
  }

  /** Deleting the account removes the same rows as delete-data, plus the caller's user row, and ends the session. */
  lemma DeleteAccountAlsoRemovesTheUser(s: Store, u: int, password: string, matches: (string, string) -> bool)
    requires u != 0 && PasswordAccepted(s.users, u, password, matches)
    ensures var r := DeleteAccountReply(s, Some(u), password, matches);
      && r.response == Ok("Deleted") && r.session == None
      && r.store.transactions == DeleteDataReply(s, Some(u), password, matches).store.transactions
      && r.store.debts == DeleteDataReply(s, Some(u), password, matches).store.debts
      && (forall v :: v in r.store.users <==> v in s.users && v.id != u)
  {
  }

  /** Both delete routes keep ids distinct. */
  lemma DeletesKeepKeys(s: Store, session: Option<int>, password: string, matches: (string, string) -> bool)
    requires WellKeyed(s)
    ensures WellKeyed(DeleteDataReply(s, session, password, matches).store)
    ensures WellKeyed(DeleteAccountReply(s, session, password, matches).store)
  {
    if Authenticated(session) {
      var u := session.value;
      WithoutKeepsUnique(s.transactions, TxOwner, u, TxKey);
      WithoutKeepsUnique(s.debts, DebtOwner, u, DebtKey);
      WithoutKeepsUnique(s.users, UserKey, u, UserKey);
    }
  }

  // ---------------------------------------------------------------------------
  // `ORDER BY date DESC`: SQLite compares TEXT column values character by character

  /** `a <= b` in the BINARY collation: a prefix, or smaller at the first difference. */
  predicate TextLe(a: string, b: string)
    decreases |a|
  {
    a == [] || (b != [] && (a[0] < b[0] || (a[0] == b[0] && TextLe(a[1..], b[1..]))))
  }

  lemma {:induction false} TextLeTotal(a: string, b: string)
    ensures TextLe(a, b) || TextLe(b, a)
    decreases |a|
  {
    if a != [] && b != [] && a[0] == b[0] {
      TextLeTotal(a[1..], b[1..]);
    }
  }

  lemma {:induction false} TextLeTransitive(a: string, b: string, c: string)
    requires TextLe(a, b) && TextLe(b, c)
    ensures TextLe(a, c)
    decreases |a|
  {
    if a != [] && b != [] && c != [] && a[0] == b[0] && b[0] == c[0] {
      TextLeTransitive(a[1..], b[1..], c[1..]);
    }
  }

  predicate DescendingByDate(rows: seq<Transaction>) {
    forall i, j :: 0 <= i < j < |rows| ==> TextLe(rows[j].date, rows[i].date)
  }

  /** Places `t` before the first row whose date is not later than its own. */
  function InsertByDate(t: Transaction, rows: seq<Transaction>): (r: seq<Transaction>)
    requires DescendingByDate(rows)
    ensures DescendingByDate(r) && multiset(r) == multiset(rows) + multiset{t}
  {
    if rows == [] then [t]
    else if TextLe(rows[0].date, t.date) then
      InsertedFirst(t, rows);
      [t] + rows
    else
      assert rows == [rows[0]] + rows[1..];
      var rest := InsertByDate(t, rows[1..]);
      InsertedLater(t, rows, rest);
      [rows[0]] + rest
  }

  lemma InsertedFirst(t: Transaction, rows: seq<Transaction>)
    requires DescendingByDate(rows) && rows != [] && TextLe(rows[0].date, t.date)
    ensures DescendingByDate([t] + rows)
  {
    var r := [t] + rows;
    forall i, j | 0 <= i < j < |r| ensures TextLe(r[j].date, r[i].date) {
      if i == 0 && j > 1 {
        TextLeTransitive(rows[j - 1].date, rows[0].date, t.date);
      }
    }
  }

  lemma InsertedLater(t: Transaction, rows: seq<Transaction>, rest: seq<Transaction>)
    requires DescendingByDate(rows) && rows != [] && !TextLe(rows[0].date, t.date)
    requires DescendingByDate(rest) && multiset(rest) == multiset(rows[1..]) + multiset{t}
    ensures DescendingByDate([rows[0]] + rest)
  {
    TextLeTotal(rows[0].date, t.date);
    var r := [rows[0]] + rest;
    forall j | 1 <= j < |r| ensures TextLe(r[j].date, rows[0].date) {
      var x := rest[j - 1];
      assert x in multiset(rest);
      if x != t {
        assert x in rows[1..];
        var m :| 0 <= m < |rows[1..]| && rows[1..][m] == x;
        assert rows[m + 1] == x;
      }
    }
  }

  /** One order `ORDER BY date DESC` may return: latest first, same rows. */
  function SortByDate(rows: seq<Transaction>): (r: seq<Transaction>)
    ensures DescendingByDate(r) && multiset(r) == multiset(rows)
  {
    if rows == [] then []
    else
      assert rows == [rows[0]] + rows[1..];
      InsertByDate(rows[0], SortByDate(rows[1..]))
  }

  /** What `GET /transactions` may return to user `u`: their rows, latest date first. */
  predicate IsListing(rows: seq<Transaction>, s: Store, u: int) {
    DescendingByDate(rows) && multiset(rows) == multiset(Only(s.transactions, TxOwner, u))
  }

  /** A listing holds exactly the caller's rows. */
  lemma ListingHoldsExactlyOwnRows(rows: seq<Transaction>, s: Store, u: int)
    requires IsListing(rows, s, u)
    ensures forall t :: t in rows <==> t in s.transactions && t.userId == u
  {
    forall t ensures t in rows <==> t in Only(s.transactions, TxOwner, u) {
      assert t in rows <==> t in multiset(rows);
    }
  }

  /** The sorted owned rows are a listing. */
  lemma SortedOwnRowsAreAListing(s: Store, u: int)
    ensures IsListing(SortByDate(Only(s.transactions, TxOwner, u)), s, u)
  {
  }

  // ---------------------------------------------------------------------------
  // The database the routes work on

  class Database {
    var users: seq<User>
    var transactions: seq<Transaction>
    var debts: seq<Debt>

    function Contents(): Store
      reads this
    {
      Store(users, transactions, debts)
    }

    predicate Valid()
      reads this
    {
      WellKeyed(Contents())
    }

    constructor ()
      ensures Valid() && Contents() == Store([], [], [])
    {
      users, transactions, debts := [], [], [];
    }

    /** `POST /debt-update`; `payment` is `parseFloat(payment_amount)`. */
    method DebtUpdate(session: Option<int>, id: int, payment: int) returns (res: Response)
      requires Valid()
      modifies this
      ensures Valid()
      ensures Reply(res, Contents(), session) == DebtUpdateReply(old(Contents()), session, id, payment)
    {
      if !Authenticated(session) {
        return LoginRequired;
      }
      var userId := session.value;
      var found := FirstDebt(debts, id, userId);
      if found.None? {
        return NotFound;
      }
      DebtUpdateKeepsKeys(Contents(), session, id, payment);
      var newAmount := debts[found.value].amount - payment;
      if newAmount <= 0 {
        debts := Without(debts, DebtKey, id);
        res := Ok("Settled");
      } else {
        debts := SetAmount(debts, id, newAmount);
        res := Ok("Updated");
      }
    }

    /** `POST /delete-data`; `matches` is `bcrypt.compare`. */
    method DeleteData(session: Option<int>, password: string, matches: (string, string) -> bool) returns (res: Response)
      requires Valid()
      modifies this
      ensures Valid()
      ensures Reply(res, Contents(), session) == DeleteDataReply(old(Contents()), session, password, matches)
    {
      if !Authenticated(session) {
        return LoginRequired;
      }
      var userId := session.value;
      if !PasswordAccepted(users, userId, password, matches) {
        return BadPass;
      }
      DeletesKeepKeys(Contents(), session, password, matches);
      transactions := Without(transactions, TxOwner, userId);
      debts := Without(debts, DebtOwner, userId);
      res := Ok("Wiped");
    }

    /** `POST /delete-account`; the session is destroyed when the account is. */
    method DeleteAccount(session: Option<int>, password: string, matches: (string, string) -> bool)
      returns (res: Response, sessionAfter: Option<int>)
      requires Valid()
      modifies this
      ensures Valid()
      ensures Reply(res, Contents(), sessionAfter) == DeleteAccountReply(old(Contents()), session, password, matches)
    {
      sessionAfter := session;
      if !Authenticated(session) {
        return LoginRequired, sessionAfter;
      }
      var userId := session.value;
      if !PasswordAccepted(users, userId, password, matches) {
        return BadPass, sessionAfter;
      }
      DeletesKeepKeys(Contents(), session, password, matches);
      transactions := Without(transactions, TxOwner, userId);
      debts := Without(debts, DebtOwner, userId);
      users := Without(users, UserKey, userId);
      sessionAfter := None;
      res := Ok("Deleted");
    }

    /** `GET /transactions`: `None` is the 401 answer. */
    method Transactions(session: Option<int>) returns (rows: Option<seq<Transaction>>)
      ensures rows.None? <==> !Authenticated(session)
      ensures rows.Some? ==> IsListing(rows.value, Contents(), session.value)
    {
      if !Authenticated(session) {
        return None;
      }
      SortedOwnRowsAreAListing(Contents(), session.value);
      rows := Some(SortByDate(Only(transactions, TxOwner, session.value)));
    }
  }
}

=== FILE: wrappers.dfy ===
/** The optional value used for JavaScript's `undefined`/`NaN` outcomes and for missing rows. */
module Wrappers {
  datatype Option<+T> = None | Some(value: T)
}
